=== FILE: README.md ===
# claude-toolkit example cores, in Dafny

This project models the logic at the heart of the example templates in claude-toolkit, and
proves properties of each model.

- **The UCP merchant client** (`UCPClient`):
  - discovery of a merchant's profile from its well-known document, with a per-client cache;
  - capability negotiation;
  - the checkout, update, completion and order calls, with their local preconditions;
  - the decoding of profiles, sessions and orders, with their defaults;
  - the mapping of error responses to `UCPError`, `VersionError` and `CapabilityError`.
- **The Azure APIM FastAPI template**:
  - reading the gateway's headers into `APIMContext` and `UserContext`;
  - the subscription-key check and the role and scope gates;
  - pagination;
  - the items router over its in-memory store;
  - health aggregation and readiness;
  - the error envelope of the exception handlers;
  - the security-header middleware.
- **The UCP scaffolding script's** `validate_agent_name`.
- **The A2A agents**:
  - the advanced agent's text analysis (word and character counts, keyword sentiment) and its key/value state handler;
  - the basic agent's greeting lookup.

Everything is a pure function over immutable values. The UCP client is a value too: `Client(agentProfileUrl, cache, sent)`.
- `sent` logs every request handed to the transport.
- The transport is an oracle `net: (nat, Request) -> Reply`: the reply to the k-th request ever sent is `net(k, request)`.
  Every merchant behaviour, failures included, is therefore some `net`.
- Each operation returns the next client value and its outcome.
- "No request is issued" means `sent` is unchanged.

JSON is a datatype with integer numbers. A response body carries its text and, when the text is JSON, the decoded value.

An absent field takes the client's default. A field of the wrong type is a `Crash`. Sometimes the Python code does raise there (`KeyError`, `AttributeError` or `TypeError`, outside the `UCPError` hierarchy). Often it does not: it keeps the ill-typed value, or the error mapper raises a `UCPError` carrying it. Those cases are listed under "## Left out".

Timestamps, `uuid4()` values and the `validate_subscription_key` setting are parameters.

Three facts about the code shape the model:
- Discovery's non-2xx replies become `discovery_failed` with the status. They do not go through `_handle_error_response` (`ucp_client.py:179-183`).
- When an error body cannot be read, its message is the body text, or `"Unknown error"` when that text is empty (`ucp_client.py:458`).
- Starlette matches header names case-insensitively, so the model keys headers by their lower-case names.

## Model


| member | source | states |
|---|---|---|
| UcpTypes.NewError | skills/examples/ucp-merchant-agent/templates/basic-shopping-agent/ucp_client.py:17-21 | keeps code and message; falsy details become `{}`, truthy details are kept |
| UcpClient.Endpoint | skills/examples/ucp-merchant-agent/templates/basic-shopping-agent/ucp_client.py:174 | the URL ends with the suffix, and what precedes it is the base with every trailing `/` removed (a prefix of the base, ending in no `/`) |
| UcpClient.EndpointIgnoresTrailingSlash | skills/examples/ucp-merchant-agent/templates/basic-shopping-agent/ucp_client.py:275 | a base with an extra trailing `/` yields the same endpoint |
| UcpClient.Discover | skills/examples/ucp-merchant-agent/templates/basic-shopping-agent/ucp_client.py:157-216 | a cached URL returns the cached profile and sends nothing; otherwise exactly one GET of the well-known URL is sent; a transport failure gives `network_error` and a non-2xx reply gives `discovery_failed` with the status, neither touching the cache; a decoded profile is cached under the exact URL string; cached entries are never replaced |
| UcpClient.DiscoverIsCached | skills/examples/ucp-merchant-agent/templates/basic-shopping-agent/ucp_client.py:168-169 | after a successful discovery, discovering the same URL again returns the same profile and client whatever the network does |
| UcpClient.SlashVariantIsSeparateKey | skills/examples/ucp-merchant-agent/templates/basic-shopping-agent/ucp_client.py:214 | after discovering `u`, discovering `u + "/"` still sends one request, to `u`'s well-known URL |
| UcpClient.Negotiate | skills/examples/ucp-merchant-agent/templates/basic-shopping-agent/ucp_client.py:231-240 | a capability (handler type) is negotiated exactly when the agent supports it and the merchant lists it; the capability result is `{checkout}` or empty |
| UcpClient.GateMatchesNegotiation | skills/examples/ucp-merchant-agent/templates/basic-shopping-agent/ucp_client.py:264 | the checkout capability gate passes exactly when negotiation keeps the checkout capability |
| UcpClient.Exchange | skills/examples/ucp-merchant-agent/templates/basic-shopping-agent/ucp_client.py:277-287 | the request is logged, and the result is what the reply yields: a transport failure is `network_error`, a non-2xx reply is the error mapper's result, and a 2xx reply succeeds exactly when its JSON decodes, with the decoded value |
| UcpClient.SessionExchange | skills/examples/ucp-merchant-agent/templates/basic-shopping-agent/ucp_client.py:277-287 | one logged request whose reply yields a checkout session decoded for the given merchant URL and handlers, or the transport or mapped error |
| UcpClient.CreateCheckout | skills/examples/ucp-merchant-agent/templates/basic-shopping-agent/ucp_client.py:243-287 | a discovery failure is passed on; a merchant without the checkout capability gives `CapabilityError` with no further request; otherwise exactly one POST of the line items and options to `/checkout`, whose reply yields the result: `network_error`, the mapped error, or the decoded session carrying the caller's URL and the profile's handlers |
| UcpClient.CheckoutGateSendsNothing | skills/examples/ucp-merchant-agent/templates/basic-shopping-agent/ucp_client.py:263-265 | with the profile cached and lacking checkout, the call returns `CapabilityError` and the client is unchanged |
| UcpClient.CheckoutPayload | skills/examples/ucp-merchant-agent/templates/basic-shopping-agent/ucp_client.py:270-273 | the body's keys are the options' and `line_items`; every option keeps its value, and `line_items` holds the line items whenever the options do not name it (a `line_items` keyword cannot reach `**kwargs`, since it is a named parameter) |
| UcpClient.CheckoutPayloadContents | skills/examples/ucp-merchant-agent/templates/basic-shopping-agent/ucp_client.py:270-273 | the POST body holds the line items and the options, and no `merchant_url` |
| UcpClient.DiscoverThen | skills/examples/ucp-merchant-agent/templates/basic-shopping-agent/ucp_client.py:312-325 | discovery, then exactly one request to the endpoint built from the profile; no request body it sends carries `merchant_url` |
| UcpClient.UpdateCheckout | skills/examples/ucp-merchant-agent/templates/basic-shopping-agent/ucp_client.py:289-325 | a missing or falsy `merchant_url` gives `invalid_request` before any request, and a non-string one crashes; otherwise discovery (its failure passed on), then one PATCH to `/checkout/{id}` carrying the other arguments, whose reply yields `network_error`, the mapped error, or the decoded session carrying the given URL |
| UcpClient.CompleteCheckout | skills/examples/ucp-merchant-agent/templates/basic-shopping-agent/ucp_client.py:327-375 | a missing or falsy `merchant_url` gives `invalid_request` before any request, and a non-string one crashes; otherwise discovery (its failure passed on), then one POST of the payment and the other arguments to `/checkout/{id}/complete`, whose reply yields `network_error`, the mapped error, or the decoded order |
| UcpClient.CompletionPayload | skills/examples/ucp-merchant-agent/templates/basic-shopping-agent/ucp_client.py:354-357 | the body's keys are the arguments' without `merchant_url`, plus `payment`; every argument keeps its value, overriding `payment` if it names it |
| UcpClient.MerchantUrlGiven | skills/examples/ucp-merchant-agent/templates/basic-shopping-agent/ucp_client.py:308-309 | `merchant_url` is present and truthy in Python's sense |
| UcpClient.MerchantUrlTruthiness | skills/examples/ucp-merchant-agent/templates/basic-shopping-agent/ucp_client.py:308-309 | a missing, `None` or empty `merchant_url` fails the test; a non-empty string passes it |
| UcpClient.CompletionPayloadContents | skills/examples/ucp-merchant-agent/templates/basic-shopping-agent/ucp_client.py:354-357 | the completion body holds the payment data and the other arguments, and no `merchant_url` |
| UcpClient.GetOrder | skills/examples/ucp-merchant-agent/templates/basic-shopping-agent/ucp_client.py:377-409 | discovery (its failure passed on), then exactly one GET of `/orders/{id}` with no body, whose reply yields `network_error`, the mapped error, or the decoded order |
| UcpWire.DecodeCapability | skills/examples/ucp-merchant-agent/templates/basic-shopping-agent/ucp_client.py:199 | a capability needs its `name`; a missing `version` is `""` |
| UcpWire.DecodeHandler | skills/examples/ucp-merchant-agent/templates/basic-shopping-agent/ucp_client.py:203-207 | a missing id or type is `""` and a missing config is `{}` |
| UcpWire.DecodeProfile | skills/examples/ucp-merchant-agent/templates/basic-shopping-agent/ucp_client.py:187-211 | name defaults to `Unknown`, description to `""`, the REST endpoint to the merchant URL, version to `""`, the lists to empty; the capability and handler lists keep the document's order and length |
| UcpWire.CapabilityRoundTrip | skills/examples/ucp-merchant-agent/templates/basic-shopping-agent/ucp_client.py:199 | a capability is read back from its own wire object |
| UcpWire.HandlerRoundTrip | skills/examples/ucp-merchant-agent/templates/basic-shopping-agent/ucp_client.py:203-207 | a payment handler is read back from its own wire object |
| UcpWire.ProfileRoundTrip | skills/examples/ucp-merchant-agent/templates/basic-shopping-agent/ucp_client.py:190-211 | any profile is read back from the document that publishes it |
| UcpWire.EmptyProfileDefaults | skills/examples/ucp-merchant-agent/templates/basic-shopping-agent/ucp_client.py:193-211 | an empty document gives the all-defaults profile, with the merchant URL as endpoint |
| UcpWire.DecodeLineItem | skills/examples/ucp-merchant-agent/templates/basic-shopping-agent/ucp_client.py:423-429 | sku defaults to `""`, quantity to 0, price to None |
| UcpWire.LineItemRoundTrip | skills/examples/ucp-merchant-agent/templates/basic-shopping-agent/ucp_client.py:423-429 | a line item is read back from its own wire object |
| UcpWire.DecodeSession | skills/examples/ucp-merchant-agent/templates/basic-shopping-agent/ucp_client.py:418-446 | the session carries the caller's URL and handlers; status defaults to `incomplete`, amounts to 0, currency to `USD`, timestamps to `now`, terms to `{}`; line items keep their order and length |
| UcpWire.SessionRoundTrip | skills/examples/ucp-merchant-agent/templates/basic-shopping-agent/ucp_client.py:418-446 | any session is read back from its wire object once the caller re-supplies its URL and handlers |
| UcpWire.DecodeOrder | skills/examples/ucp-merchant-agent/templates/basic-shopping-agent/ucp_client.py:403-409 | id defaults to `""`, status to `unknown`, confirmation number to None, total to 0, currency to `USD` |
| UcpWire.OrderRoundTrip | skills/examples/ucp-merchant-agent/templates/basic-shopping-agent/ucp_client.py:369-375 | any order is read back from its wire object |
| UcpWire.EmptyOrderDefaults | skills/examples/ucp-merchant-agent/templates/basic-shopping-agent/ucp_client.py:403-409 | an empty object gives the all-defaults order |
| UcpWire.ReadError | skills/examples/ucp-merchant-agent/templates/basic-shopping-agent/ucp_client.py:450-459 | the body is unreadable exactly when it is not a JSON object or its `error` entry is not an object; with no `error` entry the code is `unknown_error` and the message `Unknown error` |
| UcpWire.DetailOr | skills/examples/ucp-merchant-agent/templates/basic-shopping-agent/ucp_client.py:464 | a missing detail reads as `unknown` |
| UcpWire.MapErrorResponse | skills/examples/ucp-merchant-agent/templates/basic-shopping-agent/ucp_client.py:448-469 | an unreadable body gives `http_<status>` with the body text or `Unknown error`; `version_mismatch` gives `VersionError` with the agent's version and the required one; `capability_not_supported` gives `CapabilityError`; for either, a `details` that is not an object or a non-string entry ends in `Crash`; any other string code is passed through with its string message and details, and a non-string code or message ends in `Crash`; the raised error's code is the body's code |
| UcpWire.MappingIgnoresStatus | skills/examples/ucp-merchant-agent/templates/basic-shopping-agent/ucp_client.py:461-469 | once the body has a readable `error` object, the status code plays no part |
| UcpWire.VersionMismatchExample | skills/examples/ucp-merchant-agent/templates/basic-shopping-agent/ucp_client.py:461-465 | a 409 `version_mismatch` naming `2027-01-01` gives `VersionError("2026-01-11", "2027-01-01")` |
| RequestContext.AnyHeld | skills/examples/azure-apim-fastapi/templates/advanced-api/models/context.py:29-35 | true exactly when some wanted value is an exact member of the held list |
| RequestContext.NothingRequestedNothingGranted | skills/examples/azure-apim-fastapi/templates/advanced-api/models/context.py:25-35 | asking for no role or scope is never satisfied, and a fresh user satisfies no request |
| RequestContext.RolesAreCaseSensitive | skills/examples/azure-apim-fastapi/templates/advanced-api/models/context.py:31 | `admin` does not satisfy a request for `Admin` |
| ApimAuth.GetApimContext | skills/examples/azure-apim-fastapi/templates/advanced-api/services/auth.py:39-55 | correlation id is the non-empty correlation header, else the non-empty request id, else the fresh id; client IP is present exactly when the forwarded header is non-empty, and is its stripped first field; trace is on exactly for `"true"`; the other fields are copied |
| ApimAuth.BareRequestContext | skills/examples/azure-apim-fastapi/templates/advanced-api/services/auth.py:40-55 | with no gateway header the context is the default `APIMContext` apart from the fresh correlation id |
| ApimAuth.ForwardedForFirstHop | skills/examples/azure-apim-fastapi/templates/advanced-api/services/auth.py:43-45 | for `hop,rest` with a comma-free `hop`, the client IP is `hop` stripped, whatever follows |
| ApimAuth.ValidateSubscriptionKey | skills/examples/azure-apim-fastapi/templates/advanced-api/services/auth.py:67-74 | fails with 401 and `WWW-Authenticate: ApiKey` exactly when validation is on and the key is missing or empty; otherwise returns the key or `""` |
| ApimAuth.MissingKeyReply | skills/examples/azure-apim-fastapi/templates/advanced-api/services/auth.py:68-73 | the rejected key reaches the client as a 401 `unauthorized` reply still carrying `WWW-Authenticate: ApiKey` |
| ApimAuth.ClaimList | skills/examples/azure-apim-fastapi/templates/advanced-api/services/auth.py:102-104 | an absent or empty header is `[]`; otherwise the pieces, free of the separator, join back to the header |
| ApimAuth.ClaimListOfJoin | skills/examples/azure-apim-fastapi/templates/advanced-api/services/auth.py:102 | a header written as a joined list of separator-free values reads back as that list |
| ApimAuth.RolesAreNotTrimmed | skills/examples/azure-apim-fastapi/templates/advanced-api/services/auth.py:102 | `"Admin, Editor"` gives the roles `Admin` and ` Editor` |
| ApimAuth.GetUserContext | skills/examples/azure-apim-fastapi/templates/advanced-api/services/auth.py:92-105 | fails with 401 exactly when the user id is missing or empty; roles split on `,` and scopes on a space; the other claims are copied |
| ApimAuth.Gate | skills/examples/azure-apim-fastapi/templates/advanced-api/services/auth.py:117-127 | passes the user unchanged exactly when one required value is held; otherwise 403 naming all required values joined by `, ` |
| ApimAuth.RequireRoles | skills/examples/azure-apim-fastapi/templates/advanced-api/services/auth.py:108-128 | no user context gives the 401; otherwise success exactly when the user holds a required role, and a refusal is 403 |
| ApimAuth.RequireScopes | skills/examples/azure-apim-fastapi/templates/advanced-api/services/auth.py:131-151 | the same for scopes |
| ApimAuth.ListedRolePassesGate | skills/examples/azure-apim-fastapi/templates/advanced-api/services/auth.py:117-127 | a roles header listing one of the required roles passes the gate |
| ApimAuth.RoleGateNamesRequiredRoles | skills/examples/azure-apim-fastapi/templates/advanced-api/services/auth.py:123-126 | a user without roles asking for `Admin, Editor` gets exactly the 403 naming both |
| ApimResponses.TotalPages | skills/examples/azure-apim-fastapi/templates/advanced-api/models/responses.py:42 | for a positive page size, the least page count whose pages hold every item; 0 otherwise |
| ApimResponses.CreatePage | skills/examples/azure-apim-fastapi/templates/advanced-api/models/responses.py:41-54 | data, total, page and size pass through; `has_next` exactly when the page is before the last, `has_prev` exactly when it is after the first |
| ApimResponses.StartBeyondEnd | skills/examples/azure-apim-fastapi/templates/advanced-api/models/responses.py:42 | a page starts at or past the last item exactly when it lies beyond the page count |
| ApimResponses.HasNextMeansMoreItems | skills/examples/azure-apim-fastapi/templates/advanced-api/models/responses.py:51 | there is a next page exactly when items remain after the first `page` pages |
| ApimResponses.EmptyResultHasNoPages | skills/examples/azure-apim-fastapi/templates/advanced-api/models/responses.py:42-51 | no items gives no pages and no next page |
| ApimResponses.PartialLastPage | skills/examples/azure-apim-fastapi/templates/advanced-api/models/responses.py:42-52 | 45 items in pages of 20 are 3 pages, and page 3 has a previous and no next page |
| ApimItems.Values | skills/examples/azure-apim-fastapi/templates/advanced-api/routers/items.py:68 | the stored items in insertion order |
| ApimItems.Filter | skills/examples/azure-apim-fastapi/templates/advanced-api/routers/items.py:71-75 | keeps exactly the matching items |
| ApimItems.FilterAppend | skills/examples/azure-apim-fastapi/templates/advanced-api/routers/items.py:71-75 | filtering distributes over concatenation, so it keeps the relative order |
| ApimItems.Searched | skills/examples/azure-apim-fastapi/templates/advanced-api/routers/items.py:67-75 | without a non-empty term every item; with one, exactly those whose lower-cased name, or non-empty description, contains the lower-cased term |
| ApimItems.PageSlice | skills/examples/azure-apim-fastapi/templates/advanced-api/routers/items.py:79-81 | length `max(0, min(size, n - start))`, and element i is item `start + i` |
| ApimItems.PageSliceWithin | skills/examples/azure-apim-fastapi/templates/advanced-api/routers/items.py:79-81 | a page holds only items of the list it was cut from |
| ApimItems.ListItems | skills/examples/azure-apim-fastapi/templates/advanced-api/routers/items.py:45-83 | the page slice of the searched items, with the number of searched items as total |
| ApimItems.ListedItemsMatch | skills/examples/azure-apim-fastapi/templates/advanced-api/routers/items.py:67-81 | every listed item is stored, and matches the search term when there is one |
| ApimItems.EmptyPageIsBeyondLast | skills/examples/azure-apim-fastapi/templates/advanced-api/routers/items.py:78-83 | a listed page is empty exactly when it lies beyond the last page |
| ApimItems.CreateItem | skills/examples/azure-apim-fastapi/templates/advanced-api/routers/items.py:105-117 | no user context gives the 401; otherwise the item is stored under the new id with both timestamps `now`, the caller as creator, and the request's fields; the store stays well formed |
| ApimItems.GetItem | skills/examples/azure-apim-fastapi/templates/advanced-api/routers/items.py:131-135 | the stored item, or 404 for an unknown id |
| ApimItems.CreateThenGet | skills/examples/azure-apim-fastapi/templates/advanced-api/routers/items.py:116 | an item just created reads back |
| ApimItems.ApplyUpdate | skills/examples/azure-apim-fastapi/templates/advanced-api/routers/items.py:159-163 | only the fields the body sets change, plus `updated_at`; id, creation time and creator are kept |
| ApimItems.UpdateItem | skills/examples/azure-apim-fastapi/templates/advanced-api/routers/items.py:154-166 | 401 without a user, 404 for an unknown id; otherwise the item is replaced in place and every other entry is kept |
| ApimItems.Without | skills/examples/azure-apim-fastapi/templates/advanced-api/routers/items.py:191 | removes exactly that id: the result is the ids before it followed by the ids after it, in their order; a list without the id is unchanged; ids stay distinct |
| ApimItems.DeleteItem | skills/examples/azure-apim-fastapi/templates/advanced-api/routers/items.py:169-191 | the role gate first, then 404 for an unknown id; otherwise exactly that id is removed from the items, and the insertion order loses that one position and keeps the rest in order |
| ApimItems.DeleteThenGet | skills/examples/azure-apim-fastapi/templates/advanced-api/routers/items.py:188-191 | after a delete the id reads as 404 and every other id reads as before |
| ApimHealth.CheckDatabase | skills/examples/azure-apim-fastapi/templates/advanced-api/routers/health.py:41-54 | a failed probe makes the database unhealthy, with the error as message |
| ApimHealth.CheckCache | skills/examples/azure-apim-fastapi/templates/advanced-api/routers/health.py:60-73 | a failed probe only degrades the cache |
| ApimHealth.Dependencies | skills/examples/azure-apim-fastapi/templates/advanced-api/routers/health.py:93-102 | one entry per check, in order; a check that raised becomes an unhealthy `unknown` dependency |
| ApimHealth.Worst | skills/examples/azure-apim-fastapi/templates/advanced-api/routers/health.py:104-111 | the most severe status present, healthy when there is none |
| ApimHealth.OverallFollowsAnyChain | skills/examples/azure-apim-fastapi/templates/advanced-api/routers/health.py:105-111 | unhealthy exactly when some dependency is; degraded exactly when none is unhealthy and some is degraded; healthy exactly when all are |
| ApimHealth.HealthCheck | skills/examples/azure-apim-fastapi/templates/advanced-api/routers/health.py:76-119 | 503 exactly when the overall status is unhealthy, otherwise 200 |
| ApimHealth.CacheOutageIsNotCritical | skills/examples/azure-apim-fastapi/templates/advanced-api/routers/health.py:105-109 | a cache outage alone gives 200 and degraded; a database outage gives 503 and unhealthy |
| ApimHealth.Readiness | skills/examples/azure-apim-fastapi/templates/advanced-api/routers/health.py:139-146 | 503 `not_ready` exactly when the database check is unhealthy; otherwise 200 `ready` |
| ApimErrors.ErrorType | skills/examples/azure-apim-fastapi/templates/advanced-api/models/errors.py:56-69 | the table's name for the ten listed codes, and `error` exactly for every other code |
| ApimErrors.HttpExceptionReply | skills/examples/azure-apim-fastapi/templates/advanced-api/models/errors.py:71-79 | keeps the exception's status and headers, with its detail as message |
| ApimErrors.UnhandledReply | skills/examples/azure-apim-fastapi/templates/advanced-api/models/errors.py:41-48 | always 500 `internal_error` with the fixed message |
| ApimErrors.ValidationReply | skills/examples/azure-apim-fastapi/templates/advanced-api/models/errors.py:87-104 | 422 `validation_error` with one `{field, message, type}` entry per issue, in order |
| ApimErrors.FieldNameSplits | skills/examples/azure-apim-fastapi/templates/advanced-api/models/errors.py:89 | the dotted field name splits back into the location parts when no name holds a dot |
| ApimErrors.NestedFieldName | skills/examples/azure-apim-fastapi/templates/advanced-api/models/errors.py:89 | `("body", "tags", 0)` is reported as `body.tags.0` |
| ApimSecurity.SecureHeaders | skills/examples/azure-apim-fastapi/templates/advanced-api/middleware/security.py:14-31 | the corrected middleware (see "## Findings"): the four fixed headers are set; HSTS is set unless the host is `localhost` or `127.0.0.1`; `server` and `x-powered-by` are gone; no other header changes |
| ApimSecurity.SecureHeadersIdempotent | skills/examples/azure-apim-fastapi/templates/advanced-api/middleware/security.py:14-31 | applying the corrected transform twice equals applying it once |
| ApimSecurity.PopRaises | skills/examples/azure-apim-fastapi/templates/advanced-api/middleware/security.py:28-29 | a run of header statements that contains a `pop` call returns no headers, whatever the others are |
| ApimSecurity.SecureHeadersAsWritten | skills/examples/azure-apim-fastapi/templates/advanced-api/middleware/security.py:14-31 | returns headers exactly when the statements as written run without raising; otherwise the catch-all 500 reply |
| ApimSecurity.AsWrittenAlwaysFails | skills/examples/azure-apim-fastapi/templates/advanced-api/middleware/security.py:28-29 | as written, every response, local or not, is replaced by the 500 `internal_error` reply |
| ApimSecurity.CorrectedOpsMatch | skills/examples/azure-apim-fastapi/templates/advanced-api/middleware/security.py:17-29 | the same settings followed by `del` of `server` and `x-powered-by` (which Starlette allows for an absent header) never raise, and they compute `SecureHeaders` |
| ApimSecurity.NoHstsOnLocalhost | skills/examples/azure-apim-fastapi/templates/advanced-api/middleware/security.py:24-25 | a local request gets no HSTS header it did not already have |
| AgentName.ValidateAgentName | skills/examples/ucp-merchant-agent/scripts/create_ucp_agent.py:33-46 | accepts exactly the non-empty names that start with a letter and hold only letters, digits and `-` |
| AgentName.OneBadCharacterRejects | skills/examples/ucp-merchant-agent/scripts/create_ucp_agent.py:42-44 | one bad character anywhere rejects the name |
| AgentName.NamingExamples | skills/examples/ucp-merchant-agent/scripts/create_ucp_agent.py:33-46 | accepts `shop-agent-2` and `ShopAgent`; rejects the empty name, `2shop`, `-shop` and `shop_agent` |
| A2aAdvanced.CountPresent | skills/examples/a2a-agent/templates/advanced-agent/main.py:97-98 | at most one per listed word; 0 exactly when no word occurs, all exactly when every word occurs |
| A2aAdvanced.CountPresentIsPositions | skills/examples/a2a-agent/templates/advanced-agent/main.py:97-98 | the count is the number of list positions whose word occurs in the text, for any list |
| A2aAdvanced.Sentiment | skills/examples/a2a-agent/templates/advanced-agent/main.py:100-105 | positive exactly when pos > neg, negative exactly when neg > pos, neutral exactly when equal |
| A2aAdvanced.Analyze | skills/examples/a2a-agent/templates/advanced-agent/main.py:92-114 | word count is the number of whitespace-separated words; char count is the length; the sentiment compares the keyword counts over the lower-cased text |
| Text.WordsCountStarts | skills/examples/a2a-agent/templates/advanced-agent/main.py:110 | the number of words `split()` finds is the number of word starts |
| Text.WordsOfJoin | skills/examples/a2a-agent/templates/advanced-agent/main.py:110 | splitting space-joined words without whitespace gives back the words |
| A2aExamples.GreatDayCounts | skills/examples/a2a-agent/templates/advanced-agent/test_agent.py:42 | `"This is a great and excellent day!"` has 7 words and 34 characters |
| A2aExamples.GreatDayIsPositive | skills/examples/a2a-agent/templates/advanced-agent/test_agent.py:43 | that text is positive |
| A2aExamples.TerribleSituationIsNegative | skills/examples/a2a-agent/templates/advanced-agent/test_agent.py:58 | `"This is a terrible and awful situation."` is negative |
| A2aExamples.GoodbyeIsPositive | skills/examples/a2a-agent/templates/advanced-agent/main.py:97 | keywords match as substrings: `goodbye` counts as `good` |
| A2aExamples.RepeatsCountOnce | skills/examples/a2a-agent/templates/advanced-agent/main.py:97-98 | `"good good good bad"` is neutral: each word counts once |
| A2aAdvanced.SetState | skills/examples/a2a-agent/templates/advanced-agent/main.py:38-39 | the key holds the value and timestamp; every other key is untouched |
| A2aAdvanced.GetState | skills/examples/a2a-agent/templates/advanced-agent/main.py:41-42 | the stored entry, or None for a key never set |
| A2aAdvanced.HandleState | skills/examples/a2a-agent/templates/advanced-agent/main.py:142-157 | a request with a value, even an empty one, sets it and reports success; one without reads the key and leaves the store alone |
| A2aAdvanced.SetThenGet | skills/examples/a2a-agent/templates/advanced-agent/test_agent.py:61-82 | a get after a set of the same key returns the value just set |
| A2aAdvanced.SetOverwrites | skills/examples/a2a-agent/templates/advanced-agent/main.py:38-39 | setting a key twice keeps only the second value |
| A2aBasic.NamedRequest | skills/examples/a2a-agent/assets/basic-agent/main.py:28 | the language defaults to `english` |
| A2aBasic.GreetWith | skills/examples/a2a-agent/assets/basic-agent/main.py:41-53 | an explicit `null` language raises (no response); otherwise the table's opening for the lower-cased language, or the English one, then the name and `!`; the agent field is the serving agent |
| A2aBasic.HandleGreetAsWritten | skills/examples/a2a-agent/assets/basic-agent/main.py:38-53 | a `null` language raises; a Spanish request, in any case, gets a greeting starting with U+00C2 |
| A2aBasic.HandleGreet | skills/examples/a2a-agent/assets/basic-agent/main.py:38-53 | a `null` language raises; otherwise the greeting ends with `!` and starts with `H`, `¡`, `B` or `G`, never U+00C2 |
| A2aBasic.LanguageIgnoresCase | skills/examples/a2a-agent/assets/basic-agent/main.py:48 | the language is matched without regard to case |
| A2aBasic.NameReadsBack | skills/examples/a2a-agent/assets/basic-agent/main.py:41-48 | the name is exactly the text between the opening and the final `!` |
| A2aBasic.FourLanguages | skills/examples/a2a-agent/assets/basic-agent/main.py:41-46 | english, spanish, french and german each give their greeting, in any case |
| A2aBasic.EnglishByDefault | skills/examples/a2a-agent/assets/basic-agent/main.py:48 | no language, or an unknown one, gives the English greeting; an explicit `null` gives none |
| A2aBasic.SpanishAsWrittenHasStrayCharacter | skills/examples/a2a-agent/assets/basic-agent/main.py:43 | the Spanish greeting as written starts with U+00C2 and differs from the intended one; every other language is unaffected |

## Left out

- The HTTP transport: the `httpx` client, its timeout and default headers, and `close`. The transport is the `net` oracle, and each call is atomic.
- Async scheduling, and the concurrency of `asyncio.gather` in the health check. The check outcomes are an input sequence.
- The ContextVar plumbing of the correlation middleware. Its selection rule is the same as `get_apim_context`'s.
- JSON text encoding and decoding. Responses carry an already decoded value, or none when the text is not JSON.
- Floating-point JSON numbers. Every number is an integer.
- `UcpWire.DecodeProfile`, `UcpWire.DecodeSession` and `UcpWire.DecodeOrder`: a field present with the wrong type (say `"name": 42`) is a `Crash`. Python keeps such a value in the dataclass (only a non-string timestamp makes `fromisoformat` raise), and for a profile also caches it. The model's records hold typed values only.
- `UcpWire.MapErrorResponse`: a non-string `code` or `message` in a readable error object is a `Crash`. Python raises `UCPError` with that value, and the model's errors carry text.
- A capability without `name` also ends in `Crash`.
- A `details` entry that is not a string, in a version or capability error, ends in `Crash`: the model's errors carry text. Python keeps the value. A `details` that is not an object ends in `Crash` too, and there Python raises `AttributeError` as well.
- `datetime.fromisoformat`. Session timestamps stay the ISO text they came as.
- `now()`, `utcnow()` and `uuid4()`. They are parameters.
- The float timings: `processing_time`, `latency_ms` and request durations.
- Unicode semantics of `lower`, `split`, `strip`, `isalpha` and `isalnum`. Only ASCII letters are cased or alphabetic; whitespace is the ASCII set `split()` uses.
- Header-name case folding and repeated header lines (several `set-cookie` lines, say). Header maps are keyed by lower-case names and hold one value per name; the middleware never touches the repeated lines, and Starlette's set and delete collapse every line of the names they manage.
- `ApimItems.UpdateItem`: an explicit `null` for `name` or `tags` in a PUT body is not modelled. Only `description`'s explicit null is. Pydantic's field validation (lengths, `Query` bounds) is assumed to have passed; `ListItems` requires those bounds.
- `ApimHealth.CheckDatabase` and `ApimHealth.CheckCache`: the probes in the templates are placeholders that cannot fail. The model takes the probe's outcome as a parameter, so that the failure branches can be stated.
- The stream handler, the `/health`, `/metrics` and liveness endpoints of the agents, and the 500 wrappers of the handlers. They hold no logic beyond a fixed reply.
- The MCP server stubs, which only answer `not_implemented`.
- The scaffolding scripts' file copying, and `customize_agent`.
- The FastAPI wiring, routers and configuration.
- `SecureHeadersIdempotent`: it is stated of the corrected transform `SecureHeaders`. The middleware as written never returns headers (see "## Findings"), so there is nothing to apply twice.
- `ApimSecurity.SecureHeadersAsWritten`: the correlation id of the catch-all reply is a parameter. Which value the context variable holds when the handler runs is not modelled.
- In the UCP template's `main.py`, the completion route never passes `merchant_url`. A call through it always takes `CompleteCheckout`'s `invalid_request` branch.

## Findings

| source | as written | input that shows it | evidently intended | confidence | as-written member | corrected member |
|---|---|---|---|---|---|---|
| skills/examples/a2a-agent/assets/basic-agent/main.py:43 | the Spanish greeting literal is the bytes `C3 82 C2 A1` before `Hola`, which decode as U+00C2 U+00A1: UTF-8 text that was read as Latin-1 and saved again | `{"name": "Ana", "language": "spanish"}` greets with `Â¡Hola, Ana!` | `¡Hola, Ana!` | not executed; read from the file's bytes | A2aBasic.HandleGreetAsWritten (shown by A2aBasic.SpanishAsWrittenHasStrayCharacter) | A2aBasic.HandleGreet (A2aBasic.FourLanguages) |
| skills/examples/azure-apim-fastapi/templates/advanced-api/middleware/security.py:28-29 | `response.headers.pop("Server", None)`, but Starlette's `MutableHeaders` defines no `pop` (its base `Headers` is a read-only mapping), so the call raises `AttributeError`; the middleware is installed at `main.py:62` and the catch-all handler of `models/errors.py:27-48` answers instead | any request, e.g. `GET /health` from `api.example.com` | `del response.headers[name]` for `server` and `x-powered-by`, and the response returned with the security headers | not executed; read from the code and Starlette's `MutableHeaders` interface | ApimSecurity.SecureHeadersAsWritten (shown by ApimSecurity.AsWrittenAlwaysFails) | ApimSecurity.SecureHeaders (ApimSecurity.CorrectedOpsMatch, ApimSecurity.SecureHeadersIdempotent) |

=== FILE: a2a_advanced.dfy ===
/** The advanced A2A agent's `analyze` handler (word and character counts and a keyword
    sentiment) and its `state` handler over an in-memory key/value store. `now` stands for
    the `datetime.now().isoformat()` text. */
module A2aAdvanced {
  import opened Wrappers
  import opened Text

  const POSITIVE_WORDS: seq<string> := ["good", "great", "excellent", "happy", "love"]
  const NEGATIVE_WORDS: seq<string> := ["bad", "terrible", "awful", "sad", "hate"]

  /** `sum(1 for word in words if word in text)`: how many of the listed words occur in the
      text as substrings, each counted at most once however often it occurs. */
  function CountPresent(words: seq<string>, text: string): (n: nat)
    ensures n <= |words|
    ensures n == 0 <==> forall i :: 0 <= i < |words| ==> !Contains(text, words[i])
    ensures n == |words| <==> forall i :: 0 <= i < |words| ==> Contains(text, words[i])
    decreases |words|
  {
    if |words| == 0 then 0
    else
      var rest := CountPresent(words[1..], text);
      assert forall i :: 1 <= i < |words| ==> words[i] == words[1..][i - 1];
      (if Contains(text, words[0]) then 1 else 0) + rest
  }

  /** The positions from `k` on whose word occurs in the text. */
  ghost function PresentFrom(words: seq<string>, text: string, k: nat): set<nat> {
    set i: nat | k <= i < |words| && Contains(text, words[i])
  }

  /** Counting the words of a suffix is counting the positions in it whose word occurs. */
  lemma {:induction false} CountPresentFrom(words: seq<string>, text: string, k: nat)
    requires k <= |words|
    ensures CountPresent(words[k..], text) == |PresentFrom(words, text, k)|
    decreases |words| - k
  {
    if k == |words| {
      assert PresentFrom(words, text, k) == {};
    } else {
      CountPresentFrom(words, text, k + 1);
      assert words[k..][1..] == words[k + 1..];
      var here := PresentFrom(words, text, k);
      var later := PresentFrom(words, text, k + 1);
      if Contains(text, words[k]) {
        assert here == later + {k};
        assert k !in later;
      } else {
        assert here == later;
      }
    }
  }

  /** The count is the number of positions of the list whose word occurs in the text: a word
      listed twice counts twice, a word occurring twice counts once. */
  lemma CountPresentIsPositions(words: seq<string>, text: string)
    ensures CountPresent(words, text) == |PresentFrom(words, text, 0)|
  {
    CountPresentFrom(words, text, 0);
    assert words[0..] == words;
  }

  function Indicator(b: bool): nat {
    if b then 1 else 0
  }

  /** The count over a five-word list, one word at a time. */
  lemma {:induction false} CountOfFive(words: seq<string>, text: string)
    requires |words| == 5
    ensures CountPresent(words, text) ==
              Indicator(Contains(text, words[0])) + Indicator(Contains(text, words[1])) +
              Indicator(Contains(text, words[2])) + Indicator(Contains(text, words[3])) +
              Indicator(Contains(text, words[4]))
  {
    var w1 := words[1..];
    var w2 := w1[1..];
    var w3 := w2[1..];
    var w4 := w3[1..];
    assert w4[1..] == [];
    assert CountPresent(w4, text) == Indicator(Contains(text, words[4]));
    assert CountPresent(w3, text) == Indicator(Contains(text, words[3])) + CountPresent(w4, text);
    assert CountPresent(w2, text) == Indicator(Contains(text, words[2])) + CountPresent(w3, text);
    assert CountPresent(w1, text) == Indicator(Contains(text, words[1])) + CountPresent(w2, text);
  }

  /** The three-way comparison of the two counts. */
  function Sentiment(pos: nat, neg: nat): (s: string)
    ensures s == "positive" <==> pos > neg
    ensures s == "negative" <==> neg > pos
    ensures s == "neutral" <==> pos == neg
  {
    assert "positive"[0] != "negative"[0] && "positive"[0] != "neutral"[0];
    assert |"negative"| != |"neutral"|;
    if pos > neg then "positive" else if neg > pos then "negative" else "neutral"
  }

  datatype Analysis = Analysis(wordCount: nat, charCount: nat, sentiment: string)

  /** `handle_analyze`, without the elapsed time. */
  function Analyze(text: string): (r: Analysis)
    ensures r.wordCount == |Words(text)| == WordStarts(text, true)
    ensures r.charCount == |text|
    ensures var pos := CountPresent(POSITIVE_WORDS, Lower(text));
            var neg := CountPresent(NEGATIVE_WORDS, Lower(text));
            && (r.sentiment == "positive" <==> pos > neg)
            && (r.sentiment == "negative" <==> neg > pos)
            && (r.sentiment == "neutral" <==> pos == neg)
  {
    WordsCountStarts(text);
    var lowered := Lower(text);
    Analysis(|Words(text)|, |text|,
             Sentiment(CountPresent(POSITIVE_WORDS, lowered), CountPresent(NEGATIVE_WORDS, lowered)))
  }

  /** One stored value and when it was written. */
  datatype Entry = Entry(value: string, timestamp: string)

  type StateStore = map<string, Entry>

  /** `StateStore.set`: the key now holds the value; every other key is untouched. */
  function SetState(store: StateStore, key: string, value: string, now: string): (r: StateStore)
    ensures key in r && r[key] == Entry(value, now)
    ensures forall k :: k != key ==> (k in r <==> k in store) && (k in store ==> r[k] == store[k])
  {
    store[key := Entry(value, now)]
  }

  /** `StateStore.get`: `None` for a key never set. */
  function GetState(store: StateStore, key: string): (r: Option<Entry>)
    ensures r.Some? <==> key in store
    ensures r.Some? ==> r.value == store[key]
  {
    if key in store then Some(store[key]) else None
  }

  datatype StateReply = SetReply(key: string, success: bool) | GetReply(key: string, data: Option<Entry>)

  datatype StateStep = StateStep(store: StateStore, reply: StateReply)

  /** `handle_state`: a request with a value (even an empty one) sets it, a request without
      one reads the key and leaves the store alone. */
  function HandleState(store: StateStore, key: string, value: Option<string>, now: string): (r: StateStep)
    ensures value.Some? ==> r.reply == SetReply(key, true) && GetState(r.store, key) == Some(Entry(value.value, now))
    ensures value.Some? ==> forall k :: k != key ==> GetState(r.store, k) == GetState(store, k)
    ensures value.None? ==> r.store == store && r.reply == GetReply(key, GetState(store, key))
  {
    match value
    case Some(v) => StateStep(SetState(store, key, v, now), SetReply(key, true))
    case None => StateStep(store, GetReply(key, GetState(store, key)))
  }

  /** A set followed by a get of the same key returns the value just set, whatever the key
      held before. */
  lemma SetThenGet(store: StateStore, key: string, value: string, now: string)
    ensures var afterSet := HandleState(store, key, Some(value), now);
            var afterGet := HandleState(afterSet.store, key, None, now);
            && afterGet.reply == GetReply(key, Some(Entry(value, now)))
            && afterGet.store == afterSet.store
  {
  }

  /** Setting a key twice keeps only the second value. */
  lemma SetOverwrites(store: StateStore, key: string, v1: string, t1: string, v2: string, t2: string)
    ensures var once := HandleState(store, key, Some(v1), t1).store;
            var twice := HandleState(once, key, Some(v2), t2).store;
            && GetState(twice, key) == Some(Entry(v2, t2))
            && twice == HandleState(store, key, Some(v2), t2).store
  {
  }
}

=== FILE: a2a_basic.dfy ===
/** The basic A2A agent's `greet` handler: a fixed greeting per language, looked up after
    lower-casing, with English for any other language. */
module A2aBasic {
  import opened Wrappers
  import opened Text

  const DEFAULT_LANGUAGE: string := "english"
  const FALLBACK_OPENING: string := "Hello, "

  /** What precedes the name in each language's greeting; every greeting ends with `!`. */
  const OPENINGS: map<string, string> := map[
    "english" := "Hello, ",
    "spanish" := "\U{00A1}Hola, ",
    "french" := "Bonjour, ",
    "german" := "Guten Tag, "]

  /** The same table with the Spanish entry as the source file spells it: a stray U+00C2
      stands before the inverted exclamation mark, the trace of UTF-8 bytes read as
      Latin-1. */
  const OPENINGS_AS_WRITTEN: map<string, string> := OPENINGS["spanish" := "\U{00C2}\U{00A1}Hola, "]

  /** `language` is `Optional[str]`: a request may set it to `null` explicitly. */
  datatype GreetRequest = GreetRequest(name: string, language: Option<string>)

  datatype GreetResponse = GreetResponse(message: string, agent: string)

  /** A request that leaves out the language. */
  function NamedRequest(name: string): (req: GreetRequest)
    ensures req.name == name && req.language == Some(DEFAULT_LANGUAGE)
  {
    GreetRequest(name, Some(DEFAULT_LANGUAGE))
  }

  /** `handle_greet` over a given table: the table's opening for the lower-cased language, or
      the English one, then the name and `!`; the agent is the serving agent's name. An
      explicit `null` language makes `request.language.lower()` raise, and no response is
      produced (`None`). */
  function GreetWith(openings: map<string, string>, req: GreetRequest, agent: string): (r: Option<GreetResponse>)
    ensures r.None? <==> req.language.None?
    ensures r.Some? ==> r.value.agent == agent
    ensures r.Some? ==> exists opening :: r.value.message == opening + req.name + "!"
                                          && (opening == FALLBACK_OPENING || opening in openings.Values)
    ensures req.language.Some? && Lower(req.language.value) in openings ==>
              r.Some? && r.value.message == openings[Lower(req.language.value)] + req.name + "!"
    ensures req.language.Some? && Lower(req.language.value) !in openings ==>
              r.Some? && r.value.message == FALLBACK_OPENING + req.name + "!"
  {
    match req.language
    case None => None
    case Some(language) =>
      var key := Lower(language);
      var opening := if key in openings then openings[key] else FALLBACK_OPENING;
      Some(GreetResponse(opening + req.name + "!", agent))
  }

  /** The handler as the source writes it: the Spanish greeting starts with the stray
      U+00C2. */
  function HandleGreetAsWritten(req: GreetRequest, agent: string): (r: Option<GreetResponse>)
    ensures r.None? <==> req.language.None?
    ensures req.language.Some? && Lower(req.language.value) == "spanish" ==>
              r.Some? && |r.value.message| > 0 && r.value.message[0] == '\U{00C2}'
  {
    GreetWith(OPENINGS_AS_WRITTEN, req, agent)
  }

  /** The handler with the Spanish greeting spelled as intended: every greeting starts with
      the first character of a greeting of the table (`H`, `¡`, `B` or `G`), never with
      U+00C2, and ends with `!`. */
  function HandleGreet(req: GreetRequest, agent: string): (r: Option<GreetResponse>)
    ensures r.None? <==> req.language.None?
    ensures r.Some? ==>
              && r.value.agent == agent
              && |r.value.message| > 0
              && r.value.message[0] in {'H', '\U{00A1}', 'B', 'G'}
              && r.value.message[|r.value.message| - 1] == '!'
  {
    GreetWith(OPENINGS, req, agent)
  }

  /** The language is matched without regard to case. */
  lemma LanguageIgnoresCase(name: string, language: string, agent: string)
    ensures HandleGreet(GreetRequest(name, Some(language)), agent) == HandleGreet(GreetRequest(name, Some(Lower(language))), agent)
  {
    LowerIdempotent(language);
  }

  /** The name is the text between the language's opening and the final `!`. */
  lemma NameReadsBack(name: string, language: string, agent: string)
    ensures var m := HandleGreet(GreetRequest(name, Some(language)), agent).value.message;
            var opening := if Lower(language) in OPENINGS then OPENINGS[Lower(language)] else FALLBACK_OPENING;
            && |m| == |opening| + |name| + 1
            && m[..|opening|] == opening
            && m[|opening|..|m| - 1] == name
            && m[|m| - 1] == '!'
  {
    var m := HandleGreet(GreetRequest(name, Some(language)), agent).value.message;
    var opening := if Lower(language) in OPENINGS then OPENINGS[Lower(language)] else FALLBACK_OPENING;
    assert m == opening + name + "!";
    assert m[|opening|..|m| - 1] == name;
  }

  /** Each of the four languages gives its own greeting, whatever its case. */
  lemma FourLanguages(name: string, agent: string)
    ensures HandleGreet(GreetRequest(name, Some("english")), agent) == Some(GreetResponse("Hello, " + name + "!", agent))
    ensures HandleGreet(GreetRequest(name, Some("Spanish")), agent) == Some(GreetResponse("\U{00A1}Hola, " + name + "!", agent))
    ensures HandleGreet(GreetRequest(name, Some("FRENCH")), agent) == Some(GreetResponse("Bonjour, " + name + "!", agent))
    ensures HandleGreet(GreetRequest(name, Some("german")), agent) == Some(GreetResponse("Guten Tag, " + name + "!", agent))
  {
    assert Lower("english") == "english";
    assert Lower("Spanish") == "spanish";
    assert Lower("FRENCH") == "french";
    assert Lower("german") == "german";
  }

  /** A request without a language, and one in a language the table lacks, get English;
      an explicit `null` language gets no greeting at all. */
  lemma EnglishByDefault(name: string, agent: string)
    ensures HandleGreet(NamedRequest(name), agent) == Some(GreetResponse("Hello, " + name + "!", agent))
    ensures HandleGreet(GreetRequest(name, Some("italian")), agent) == Some(GreetResponse("Hello, " + name + "!", agent))
    ensures HandleGreet(GreetRequest(name, None), agent) == None
  {
    assert Lower(DEFAULT_LANGUAGE) == "english";
    assert Lower("italian") == "italian";
    assert "italian" !in OPENINGS;
  }

  /** The Spanish greeting as written starts with U+00C2 rather than the inverted
      exclamation mark, and is one character longer than the intended one; every other
      language is unaffected. */
  lemma SpanishAsWrittenHasStrayCharacter(name: string, agent: string)
    ensures var written := HandleGreetAsWritten(GreetRequest(name, Some("spanish")), agent).value.message;
            var intended := HandleGreet(GreetRequest(name, Some("spanish")), agent).value.message;
            && written == "\U{00C2}" + intended
            && written[0] == '\U{00C2}' && intended[0] == '\U{00A1}'
            && written != intended
    ensures forall language :: Lower(language) != "spanish" ==>
              HandleGreetAsWritten(GreetRequest(name, Some(language)), agent) == HandleGreet(GreetRequest(name, Some(language)), agent)
  {
    assert Lower("spanish") == "spanish";
  }
}

=== FILE: a2a_examples.dfy ===
/** The analysis examples of the advanced agent's tests, and two more that show how the
    keyword count treats substrings and repeats. Each example is proved in three steps:
    letter facts read off the literal, the containment facts they imply for the lower-cased
    text, and the counts those facts give. */
module A2aExamples {
  import opened Text
  import opened A2aAdvanced

  /** The first analysis example: seven words, thirty-four characters. */
  lemma GreatDayCounts()
    ensures var r := Analyze("This is a great and excellent day!");
            r.wordCount == 7 && r.charCount == 34
  {
    var text := "This is a great and excellent day!";
    GreatDaySpaces(text);
    SevenWords(text);
  }

  lemma GreatDaySpaces(text: string)
    requires text == "This is a great and excellent day!"
    ensures |text| == 34 && SpacesAt(text, {4, 7, 9, 15, 19, 29})
  {
  }

  /** Any 34-character text spaced like the first example holds seven words. */
  lemma SevenWords(text: string)
    requires |text| == 34 && SpacesAt(text, {4, 7, 9, 15, 19, 29})
    ensures WordStarts(text, true) == 7
  {
    assert text[0..] == text;
    FirstThreeWords(text);
    MiddleTwoWords(text);
    LastTwoWords(text);
  }

  lemma FirstThreeWords(text: string)
    requires |text| == 34 && SpacesAt(text, {4, 7, 9, 15, 19, 29})
    ensures WordStarts(text[0..], true) == 3 + WordStarts(text[10..], true)
  {
    WordStartsRun(text, 0, 4);
    WordStartsSpace(text, 4);
    WordStartsRun(text, 5, 7);
    WordStartsSpace(text, 7);
    WordStartsRun(text, 8, 9);
    WordStartsSpace(text, 9);
  }

  lemma MiddleTwoWords(text: string)
    requires |text| == 34 && SpacesAt(text, {4, 7, 9, 15, 19, 29})
    ensures WordStarts(text[10..], true) == 2 + WordStarts(text[20..], true)
  {
    WordStartsRun(text, 10, 15);
    WordStartsSpace(text, 15);
    WordStartsRun(text, 16, 19);
    WordStartsSpace(text, 19);
  }

  lemma LastTwoWords(text: string)
    requires |text| == 34 && SpacesAt(text, {4, 7, 9, 15, 19, 29})
    ensures WordStarts(text[20..], true) == 2
  {
    WordStartsRun(text, 20, 29);
    WordStartsSpace(text, 29);
    WordStartsRun(text, 30, 34);
    assert text[34..] == [];
  }

  /** The first analysis example is positive: it holds `great` and `excellent` and no
      negative word. */
  lemma GreatDayIsPositive()
    ensures Analyze("This is a great and excellent day!").sentiment == "positive"
  {
    var text := "This is a great and excellent day!";
    GreatDayFound(text);
    GreatDayNoOp(text);
    GreatDayNoBw(text);
    GreatDayNoSa(text);
    GreatDayNoHa(text);
    GreatDayPositives(text);
    GreatDayNegatives(text);
    TwoPositivesNoNegatives(Lower(text));
  }

  lemma GreatDayFound(text: string)
    requires text == "This is a great and excellent day!"
    ensures FoundLowerAt(text, "great", 10) && FoundLowerAt(text, "excellent", 20)
  {
  }

  lemma GreatDayNoOp(text: string)
    requires text == "This is a great and excellent day!"
    ensures AvoidsLower(text, "op")
  {
  }

  lemma GreatDayNoBw(text: string)
    requires text == "This is a great and excellent day!"
    ensures AvoidsLower(text, "bw")
  {
  }

  lemma GreatDayNoSa(text: string)
    requires text == "This is a great and excellent day!"
    ensures AvoidsLowerPair(text, 's', 'a')
  {
  }

  lemma GreatDayNoHa(text: string)
    requires text == "This is a great and excellent day!"
    ensures AvoidsLowerPair(text, 'h', 'a')
  {
  }

  lemma GreatDayPositives(text: string)
    requires FoundLowerAt(text, "great", 10) && FoundLowerAt(text, "excellent", 20)
    requires AvoidsLower(text, "op")
    ensures Contains(Lower(text), "great") && Contains(Lower(text), "excellent")
    ensures !Contains(Lower(text), "good") && !Contains(Lower(text), "happy") && !Contains(Lower(text), "love")
  {
    ContainsLower(text, "great", 10);
    ContainsLower(text, "excellent", 20);
    MissingLower(text, "good", 'o', "op");
    MissingLower(text, "happy", 'p', "op");
    MissingLower(text, "love", 'o', "op");
  }

  lemma GreatDayNegatives(text: string)
    requires AvoidsLower(text, "bw")
    requires AvoidsLowerPair(text, 's', 'a') && AvoidsLowerPair(text, 'h', 'a')
    ensures !Contains(Lower(text), "bad") && !Contains(Lower(text), "terrible") && !Contains(Lower(text), "awful")
    ensures !Contains(Lower(text), "sad") && !Contains(Lower(text), "hate")
  {
    MissingLower(text, "bad", 'b', "bw");
    MissingLower(text, "terrible", 'b', "bw");
    MissingLower(text, "awful", 'w', "bw");
    MissingLowerPair(text, "sad", 0, 's', 'a');
    MissingLowerPair(text, "hate", 0, 'h', 'a');
  }

  lemma TwoPositivesNoNegatives(low: string)
    requires Contains(low, "great") && Contains(low, "excellent")
    requires !Contains(low, "good") && !Contains(low, "happy") && !Contains(low, "love")
    requires !Contains(low, "bad") && !Contains(low, "terrible") && !Contains(low, "awful")
    requires !Contains(low, "sad") && !Contains(low, "hate")
    ensures CountPresent(POSITIVE_WORDS, low) == 2
    ensures CountPresent(NEGATIVE_WORDS, low) == 0
  {
    CountOfFive(POSITIVE_WORDS, low);
    CountOfFive(NEGATIVE_WORDS, low);
  }

  /** The second analysis example is negative: it holds `terrible` and no positive word. */
  lemma TerribleSituationIsNegative()
    ensures Analyze("This is a terrible and awful situation.").sentiment == "negative"
  {
    var text := "This is a terrible and awful situation.";
    TerribleSituationFound(text);
    TerribleSituationLetters(text);
    TerribleSituationWords(text);
    NoPositivesSomeNegative(Lower(text));
  }

  lemma TerribleSituationFound(text: string)
    requires text == "This is a terrible and awful situation."
    ensures FoundLowerAt(text, "terrible", 10)
  {
  }

  lemma TerribleSituationLetters(text: string)
    requires text == "This is a terrible and awful situation."
    ensures AvoidsLower(text, "gxpv")
  {
  }

  lemma TerribleSituationWords(text: string)
    requires FoundLowerAt(text, "terrible", 10)
    requires AvoidsLower(text, "gxpv")
    ensures Contains(Lower(text), "terrible")
    ensures !Contains(Lower(text), "good") && !Contains(Lower(text), "great") && !Contains(Lower(text), "excellent")
    ensures !Contains(Lower(text), "happy") && !Contains(Lower(text), "love")
  {
    ContainsLower(text, "terrible", 10);
    MissingLower(text, "good", 'g', "gxpv");
    MissingLower(text, "great", 'g', "gxpv");
    MissingLower(text, "excellent", 'x', "gxpv");
    MissingLower(text, "happy", 'p', "gxpv");
    MissingLower(text, "love", 'v', "gxpv");
  }

  lemma NoPositivesSomeNegative(low: string)
    requires Contains(low, "terrible")
    requires !Contains(low, "good") && !Contains(low, "great") && !Contains(low, "excellent")
    requires !Contains(low, "happy") && !Contains(low, "love")
    ensures CountPresent(POSITIVE_WORDS, low) == 0
    ensures CountPresent(NEGATIVE_WORDS, low) >= 1
  {
    CountOfFive(POSITIVE_WORDS, low);
    CountOfFive(NEGATIVE_WORDS, low);
  }

  /** Words match as substrings: `goodbye` counts as `good`. */
  lemma GoodbyeIsPositive()
    ensures Analyze("goodbye").sentiment == "positive"
  {
    var text := "goodbye";
    GoodbyeLetters(text);
    GoodbyeWords(text);
    SomePositiveNoNegatives(Lower(text));
  }

  lemma GoodbyeLetters(text: string)
    requires text == "goodbye"
    ensures FoundLowerAt(text, "good", 0)
    ensures AvoidsLower(text, "at")
  {
  }

  lemma GoodbyeWords(text: string)
    requires FoundLowerAt(text, "good", 0)
    requires AvoidsLower(text, "at")
    ensures Contains(Lower(text), "good")
    ensures !Contains(Lower(text), "bad") && !Contains(Lower(text), "terrible") && !Contains(Lower(text), "awful")
    ensures !Contains(Lower(text), "sad") && !Contains(Lower(text), "hate")
  {
    ContainsLower(text, "good", 0);
    MissingLower(text, "bad", 'a', "at");
    MissingLower(text, "terrible", 't', "at");
    MissingLower(text, "awful", 'a', "at");
    MissingLower(text, "sad", 'a', "at");
    MissingLower(text, "hate", 'a', "at");
  }

  lemma SomePositiveNoNegatives(low: string)
    requires Contains(low, "good")
    requires !Contains(low, "bad") && !Contains(low, "terrible") && !Contains(low, "awful")
    requires !Contains(low, "sad") && !Contains(low, "hate")
    ensures CountPresent(POSITIVE_WORDS, low) >= 1
    ensures CountPresent(NEGATIVE_WORDS, low) == 0
  {
    CountOfFive(POSITIVE_WORDS, low);
    CountOfFive(NEGATIVE_WORDS, low);
  }

  /** A repeated word still counts once: three `good`s against one `bad` is neutral. */
  lemma RepeatsCountOnce()
    ensures Analyze("good good good bad").sentiment == "neutral"
  {
    var text := "good good good bad";
    RepeatsLetters(text);
    RepeatsWords(text);
    OneEach(Lower(text));
  }

  lemma RepeatsLetters(text: string)
    requires text == "good good good bad"
    ensures FoundLowerAt(text, "good", 0) && FoundLowerAt(text, "bad", 15)
    ensures AvoidsLower(text, "rehltws")
  {
  }

  lemma RepeatsWords(text: string)
    requires FoundLowerAt(text, "good", 0) && FoundLowerAt(text, "bad", 15)
    requires AvoidsLower(text, "rehltws")
    ensures Contains(Lower(text), "good") && Contains(Lower(text), "bad")
    ensures !Contains(Lower(text), "great") && !Contains(Lower(text), "excellent")
    ensures !Contains(Lower(text), "happy") && !Contains(Lower(text), "love")
    ensures !Contains(Lower(text), "terrible") && !Contains(Lower(text), "awful")
    ensures !Contains(Lower(text), "sad") && !Contains(Lower(text), "hate")
  {
    ContainsLower(text, "good", 0);
    ContainsLower(text, "bad", 15);
    MissingLower(text, "great", 'r', "rehltws");
    MissingLower(text, "excellent", 'e', "rehltws");
    MissingLower(text, "happy", 'h', "rehltws");
    MissingLower(text, "love", 'l', "rehltws");
    MissingLower(text, "terrible", 't', "rehltws");
    MissingLower(text, "awful", 'w', "rehltws");
    MissingLower(text, "sad", 's', "rehltws");
    MissingLower(text, "hate", 'h', "rehltws");
  }

  lemma OneEach(low: string)
    requires Contains(low, "good") && Contains(low, "bad")
    requires !Contains(low, "great") && !Contains(low, "excellent")
    requires !Contains(low, "happy") && !Contains(low, "love")
    requires !Contains(low, "terrible") && !Contains(low, "awful")
    requires !Contains(low, "sad") && !Contains(low, "hate")
    ensures CountPresent(POSITIVE_WORDS, low) == 1
    ensures CountPresent(NEGATIVE_WORDS, low) == 1
  {
    CountOfFive(POSITIVE_WORDS, low);
    CountOfFive(NEGATIVE_WORDS, low);
  }
}

=== FILE: agent_name.dfy ===
/** `validate_agent_name` of the UCP agent scaffolding script, over ASCII names. */
module AgentName {
  import opened Text

  /** The naming rule: not empty, starts with a letter, and holds only letters, digits and
      hyphens. Upper-case letters are allowed. */
  predicate WellFormedName(name: string) {
    && |name| > 0
    && IsAlpha(name[0])
    && forall i :: 0 <= i < |name| ==> IsAlnum(name[i]) || name[i] == '-'
  }

  /** The checks in the order the script makes them: emptiness, the first character, then
      every character in turn. */
  method ValidateAgentName(name: string) returns (ok: bool)
    ensures ok <==> WellFormedName(name)
    ensures |name| == 0 ==> !ok
    ensures |name| > 0 && !IsAlpha(name[0]) ==> !ok
  {
    if |name| == 0 {
      return false;
    }
    if !IsAlpha(name[0]) {
      return false;
    }
    var i := 0;
    while i < |name|
      invariant 0 <= i <= |name|
      invariant forall j :: 0 <= j < i ==> IsAlnum(name[j]) || name[j] == '-'
    {
      if !(IsAlnum(name[i]) || name[i] == '-') {
        return false;
      }
      i := i + 1;
    }
    return true;
  }

  /** A character outside letters, digits and `-` anywhere in the name rejects it. */
  lemma OneBadCharacterRejects(name: string, k: nat)
    requires k < |name| && !IsAlnum(name[k]) && name[k] != '-'
    ensures !WellFormedName(name)
  {
  }

  /** Names the rule accepts and rejects, upper-case letters included even though the
      script's error message asks for lower case. */
  lemma NamingExamples()
    ensures WellFormedName("shop-agent-2")
    ensures WellFormedName("ShopAgent")
    ensures !WellFormedName("")
    ensures !WellFormedName("2shop")
    ensures !WellFormedName("-shop")
    ensures !WellFormedName("shop_agent")
  {
    assert !IsAlnum("shop_agent"[4]) && "shop_agent"[4] != '-';
  }
}

=== FILE: apim_auth.dfy ===
/** The APIM template's authentication dependencies: reading the gateway's headers into an
    `APIMContext`, the subscription-key check, reading the forwarded JWT claims into a
    `UserContext`, and the role and scope gates. A header the request does not carry is
    `None`; `freshId` stands for the `uuid4()` generated when no correlation id arrived. */
module ApimAuth {
  import opened Wrappers
  import opened Text
  import opened RequestContext
  import opened ApimErrors

  /** The gateway headers `get_apim_context` reads. */
  datatype ApimHeaders = ApimHeaders(
    requestId: Option<string>,
    correlationId: Option<string>,
    subscriptionKey: Option<string>,
    trace: Option<string>,
    subscriptionId: Option<string>,
    productName: Option<string>,
    forwardedFor: Option<string>)

  const NO_APIM_HEADERS: ApimHeaders := ApimHeaders(None, None, None, None, None, None, None)

  /** The identity headers `get_user_context` reads. */
  datatype UserHeaders = UserHeaders(
    userId: Option<string>,
    email: Option<string>,
    name: Option<string>,
    roles: Option<string>,
    tenantId: Option<string>,
    scopes: Option<string>)

  /** A header value Python treats as true: present and not empty. */
  predicate Given(h: Option<string>) {
    h.Some? && |h.value| > 0
  }

  /** `get_apim_context`. */
  function GetApimContext(h: ApimHeaders, freshId: string): (c: ApimContext)
    ensures Given(h.correlationId) ==> c.correlationId == h.correlationId
    ensures !Given(h.correlationId) && Given(h.requestId) ==> c.correlationId == h.requestId
    ensures !Given(h.correlationId) && !Given(h.requestId) ==> c.correlationId == Some(freshId)
    ensures c.clientIp.Some? <==> Given(h.forwardedFor)
    ensures c.clientIp.Some? ==> c.clientIp.value == Strip(Split(h.forwardedFor.value, ',')[0])
    ensures c.traceEnabled <==> h.trace == Some("true")
    ensures c.requestId == h.requestId && c.subscriptionId == h.subscriptionId
    ensures c.subscriptionKey == h.subscriptionKey && c.productName == h.productName
  {
    var correlation :=
      if Given(h.correlationId) then h.correlationId.value
      else if Given(h.requestId) then h.requestId.value
      else freshId;
    var clientIp :=
      if Given(h.forwardedFor) then
        FirstFieldIsFirstPiece(h.forwardedFor.value, ',');
        Some(Strip(FirstField(h.forwardedFor.value, ',')))
      else None;
    ApimContext(h.requestId, Some(correlation), h.subscriptionId, h.subscriptionKey,
                h.productName, clientIp, h.trace == Some("true"))
  }

  /** With no gateway header at all the context is the default one, apart from the
      generated correlation id. */
  lemma BareRequestContext(freshId: string)
    ensures GetApimContext(NO_APIM_HEADERS, freshId) == FRESH_APIM_CONTEXT.(correlationId := Some(freshId))
  {
  }

  /** Only the first hop of a proxy chain is kept, without its surrounding blanks. */
  lemma ForwardedForFirstHop(hop: string, rest: string, freshId: string)
    requires ',' !in hop
    ensures GetApimContext(NO_APIM_HEADERS.(forwardedFor := Some(hop + "," + rest)), freshId).clientIp
            == Some(Strip(hop))
  {
    SplitPrefix(hop, "," + rest, ',');
    assert ("," + rest)[1..] == rest;
    assert hop + "," + rest == hop + ("," + rest);
    assert hop + "" == hop;
  }

  /** The exception both 401 paths of the subscription-key check raise. */
  const MISSING_KEY: HttpException :=
    HttpException(401, "Subscription key required", map["WWW-Authenticate" := "ApiKey"])

  /** `validate_subscription_key`, with `enabled` the `validate_subscription_key` setting. */
  function ValidateSubscriptionKey(enabled: bool, key: Option<string>): (r: Result<string, HttpException>)
    ensures r.Err? <==> enabled && !Given(key)
    ensures r.Err? ==> r.error == MISSING_KEY
    ensures r.Ok? && Given(key) ==> r.value == key.value
    ensures r.Ok? && !Given(key) ==> r.value == ""
  {
    if enabled && !Given(key) then Err(MISSING_KEY)
    else Ok(if Given(key) then key.value else "")
  }

  /** The rejected key reaches the client as a 401 `unauthorized` reply that still asks for
      an API key. */
  lemma MissingKeyReply(cid: Option<string>)
    ensures var reply := HttpExceptionReply(ValidateSubscriptionKey(true, None).error, cid);
            && reply.status == 401
            && reply.content.error == "unauthorized"
            && reply.headers["WWW-Authenticate"] == "ApiKey"
  {
  }

  const NO_USER: HttpException := HttpException(401, "User context not provided. Authentication required.", map[])

  /** A comma- or space-separated claim header: split on the separator with no trimming,
      and an absent or empty header is the empty list. */
  function ClaimList(h: Option<string>, sep: char): (r: seq<string>)
    ensures !Given(h) ==> r == []
    ensures Given(h) ==> |r| >= 1 && Join(r, [sep]) == h.value
    ensures forall i :: 0 <= i < |r| ==> sep !in r[i]
  {
    if Given(h) then JoinSplit(h.value, sep); Split(h.value, sep) else []
  }

  /** `get_user_context`. */
  function GetUserContext(h: UserHeaders): (r: Result<UserContext, HttpException>)
    ensures r.Err? <==> !Given(h.userId)
    ensures r.Err? ==> r.error == NO_USER
    ensures r.Ok? ==>
              var u := r.value;
              && Some(u.userId) == h.userId
              && u.email == h.email && u.name == h.name && u.tenantId == h.tenantId
              && u.roles == ClaimList(h.roles, ',')
              && u.scopes == ClaimList(h.scopes, ' ')
  {
    if !Given(h.userId) then Err(NO_USER)
    else Ok(UserContext(h.userId.value, h.email, h.name, ClaimList(h.roles, ','), h.tenantId, ClaimList(h.scopes, ' ')))
  }

  /** Claim lists are not trimmed: `"Admin, Editor"` grants `"Admin"` and `" Editor"`. */
  lemma RolesAreNotTrimmed()
    ensures ClaimList(Some("Admin, Editor"), ',') == ["Admin", " Editor"]
  {
    SplitJoin(["Admin", " Editor"], ',');
    assert Join(["Admin", " Editor"], [',']) == "Admin, Editor";
  }

  /** The gate inside `require_roles`/`require_scopes`: the user unchanged when it holds one
      of the required values, otherwise 403 naming all of them. */
  function Gate(u: UserContext, held: seq<string>, required: seq<string>, what: string): (r: Result<UserContext, HttpException>)
    ensures r.Ok? <==> exists i :: 0 <= i < |required| && required[i] in held
    ensures r.Ok? ==> r.value == u
    ensures r.Err? ==> r.error == HttpException(403, "Insufficient permissions. Required " + what + ": " + Join(required, ", "), map[])
  {
    if AnyHeld(required, held) then Ok(u)
    else Err(HttpException(403, "Insufficient permissions. Required " + what + ": " + Join(required, ", "), map[]))
  }

  /** `require_roles(*required)`: first the user context, then the role gate. */
  function RequireRoles(h: UserHeaders, required: seq<string>): (r: Result<UserContext, HttpException>)
    ensures !Given(h.userId) ==> r == Err(NO_USER)
    ensures Given(h.userId) ==>
              && (r.Ok? <==> HasRole(GetUserContext(h).value, required))
              && (r.Ok? ==> r == GetUserContext(h))
              && (r.Err? ==> r.error.status == 403)
  {
    var u :- GetUserContext(h);
    Gate(u, u.roles, required, "roles")
  }

  /** `require_scopes(*required)`: first the user context, then the scope gate. */
  function RequireScopes(h: UserHeaders, required: seq<string>): (r: Result<UserContext, HttpException>)
    ensures !Given(h.userId) ==> r == Err(NO_USER)
    ensures Given(h.userId) ==>
              && (r.Ok? <==> HasScope(GetUserContext(h).value, required))
              && (r.Ok? ==> r == GetUserContext(h))
              && (r.Err? ==> r.error.status == 403)
  {
    var u :- GetUserContext(h);
    Gate(u, u.scopes, required, "scopes")
  }

  /** A claim header written as a comma-joined list of comma-free values reads back as
      that list. */
  lemma ClaimListOfJoin(values: seq<string>, sep: char)
    requires |values| >= 1 && forall i :: 0 <= i < |values| ==> sep !in values[i]
    requires |Join(values, [sep])| > 0
    ensures ClaimList(Some(Join(values, [sep])), sep) == values
  {
    SplitJoin(values, sep);
  }

  /** A user whose roles header lists one of the required roles passes
      `require_roles(*required)`. */
  lemma ListedRolePassesGate(userId: string, roles: seq<string>, required: seq<string>, k: nat)
    requires |userId| > 0
    requires |roles| >= 1 && forall i :: 0 <= i < |roles| ==> ',' !in roles[i]
    requires |Join(roles, [','])| > 0
    requires k < |required| && required[k] in roles
    ensures RequireRoles(UserHeaders(Some(userId), None, None, Some(Join(roles, [','])), None, None), required).Ok?
  {
    ClaimListOfJoin(roles, ',');
  }

  /** A user with no roles header is refused, and the refusal lists every required role. */
  lemma RoleGateNamesRequiredRoles(userId: string)
    requires |userId| > 0
    ensures RequireRoles(UserHeaders(Some(userId), None, None, None, None, None), ["Admin", "Editor"])
            == Err(HttpException(403, "Insufficient permissions. Required roles: Admin, Editor", map[]))
  {
    var h := UserHeaders(Some(userId), None, None, None, None, None);
    assert GetUserContext(h).value.roles == [];
    assert !HasRole(GetUserContext(h).value, ["Admin", "Editor"]);
    assert Join(["Admin", "Editor"], ", ") == "Admin" + ", " + "Editor";
    assert "Insufficient permissions. Required " + "roles" + ": " + ("Admin" + ", " + "Editor")
        == "Insufficient permissions. Required roles: Admin, Editor";
  }
}

=== FILE: apim_context.dfy ===
/** The APIM template's request context models: what the gateway's headers say about the
    request (`APIMContext`) and about the caller (`UserContext`). */
module RequestContext {
  import opened Wrappers

  datatype ApimContext = ApimContext(
    requestId: Option<string>,
    correlationId: Option<string>,
    subscriptionId: Option<string>,
    subscriptionKey: Option<string>,
    productName: Option<string>,
    clientIp: Option<string>,
    traceEnabled: bool)

  /** `APIMContext()` with every field at its default. */
  const FRESH_APIM_CONTEXT: ApimContext := ApimContext(None, None, None, None, None, None, false)

  datatype UserContext = UserContext(
    userId: string,
    email: Option<string>,
    name: Option<string>,
    roles: seq<string>,
    tenantId: Option<string>,
    scopes: seq<string>)

  /** `UserContext(user_id=...)` with every other field at its default. */
  function NewUser(userId: string): UserContext {
    UserContext(userId, None, None, [], None, [])
  }

  /** `any(x in held for x in wanted)`: exact, case-sensitive membership of at least one
      wanted value. */
  function AnyHeld(wanted: seq<string>, held: seq<string>): (r: bool)
    ensures r <==> exists i :: 0 <= i < |wanted| && wanted[i] in held
    decreases |wanted|
  {
    if |wanted| == 0 then false
    else if wanted[0] in held then true
    else
      var rest := AnyHeld(wanted[1..], held);
      assert forall i :: 1 <= i < |wanted| ==> wanted[i] == wanted[1..][i - 1];
      rest
  }

  /** `UserContext.has_role(*roles)`. */
  function HasRole(u: UserContext, roles: seq<string>): bool {
    AnyHeld(roles, u.roles)
  }

  /** `UserContext.has_scope(*scopes)`. */
  function HasScope(u: UserContext, scopes: seq<string>): bool {
    AnyHeld(scopes, u.scopes)
  }

  /** Asking for nothing is never satisfied, and a fresh user satisfies no request. */
  lemma NothingRequestedNothingGranted(u: UserContext, userId: string, wanted: seq<string>)
    ensures !HasRole(u, []) && !HasScope(u, [])
    ensures !HasRole(NewUser(userId), wanted) && !HasScope(NewUser(userId), wanted)
  {
  }

  /** Role names are compared exactly: `"admin"` does not satisfy a request for `"Admin"`. */
  lemma RolesAreCaseSensitive(userId: string)
    ensures !HasRole(NewUser(userId).(roles := ["admin"]), ["Admin"])
    ensures HasRole(NewUser(userId).(roles := ["Editor", "admin"]), ["Admin", "admin"])
  {
    assert "Admin" != "admin" by { assert "Admin"[0] != "admin"[0]; }
    assert ["Admin", "admin"][1] in ["Editor", "admin"];
  }
}

=== FILE: apim_errors.dfy ===
/** The APIM template's error envelope: `HTTPException`, the status-to-error-type table, and
    the three exception handlers that turn an exception into a JSON error response. */
module ApimErrors {
  import opened Wrappers
  import opened Json
  import opened Text

  /** FastAPI's `HTTPException`; `headers=None` is the empty map. `detail` is the text
      `str(exc.detail)` yields. */
  datatype HttpException = HttpException(status: int, detail: string, headers: map<string, string>)

  /** `ErrorResponse.model_dump()`. */
  datatype ErrorBody = ErrorBody(error: string, message: string, correlationId: Option<string>, details: Option<Json>)

  datatype ErrorReply = ErrorReply(status: int, content: ErrorBody, headers: map<string, string>)

  /** The error types `http_exception_handler` knows. */
  const ERROR_TYPES: map<int, string> := map[
    400 := "bad_request",
    401 := "unauthorized",
    403 := "forbidden",
    404 := "not_found",
    409 := "conflict",
    422 := "validation_error",
    429 := "rate_limit_exceeded",
    500 := "internal_error",
    502 := "bad_gateway",
    503 := "service_unavailable"]

  /** `error_types.get(status, "error")`: only the ten listed codes have a name of their own,
      and none of those names is the fallback. */
  function ErrorType(status: int): (r: string)
    ensures r == "error" <==> status !in {400, 401, 403, 404, 409, 422, 429, 500, 502, 503}
    ensures status in ERROR_TYPES ==> r == ERROR_TYPES[status]
  {
    if status in ERROR_TYPES then ERROR_TYPES[status] else "error"
  }

  /** `http_exception_handler`: the exception's own status and headers, its detail as the
      message, and the error type of its status. */
  function HttpExceptionReply(exc: HttpException, correlationId: Option<string>): (r: ErrorReply)
    ensures r.status == exc.status && r.headers == exc.headers
    ensures r.content == ErrorBody(ErrorType(exc.status), exc.detail, correlationId, None)
  {
    ErrorReply(exc.status, ErrorBody(ErrorType(exc.status), exc.detail, correlationId, None), exc.headers)
  }

  /** `global_exception_handler`: every other exception, whatever it says, gives the same
      500 reply. */
  function UnhandledReply(correlationId: Option<string>): (r: ErrorReply)
    ensures r.status == 500 && r.content.error == ErrorType(500)
    ensures r.content == ErrorBody("internal_error", "An unexpected error occurred", correlationId, None)
    ensures r.headers == map[]
  {
    ErrorReply(500, ErrorBody("internal_error", "An unexpected error occurred", correlationId, None), map[])
  }

  /** One element of a validation error's `loc`: a field name or a list index. */
  datatype LocPart = Key(name: string) | Index(i: nat)

  datatype ValidationIssue = ValidationIssue(loc: seq<LocPart>, msg: string, kind: string)

  /** `str(l)`. */
  function LocText(p: LocPart): string {
    match p
    case Key(n) => n
    case Index(i) => NatToString(i)
  }

  function LocTexts(loc: seq<LocPart>): (r: seq<string>)
    ensures |r| == |loc| && forall i :: 0 <= i < |loc| ==> r[i] == LocText(loc[i])
  {
    seq(|loc|, i requires 0 <= i < |loc| => LocText(loc[i]))
  }

  /** `".".join(str(l) for l in loc)`. */
  function FieldName(loc: seq<LocPart>): string {
    Join(LocTexts(loc), ".")
  }

  /** The dotted field name gives back the location parts, provided no field name contains
      a dot. */
  lemma FieldNameSplits(loc: seq<LocPart>)
    requires |loc| >= 1
    requires forall i :: 0 <= i < |loc| && loc[i].Key? ==> '.' !in loc[i].name
    ensures Split(FieldName(loc), '.') == LocTexts(loc)
  {
    var texts := LocTexts(loc);
    forall i | 0 <= i < |texts| ensures '.' !in texts[i] {
      if loc[i].Index? {
        var t := NatToString(loc[i].i);
        assert forall k :: 0 <= k < |t| ==> t[k] != '.';
      }
    }
    SplitJoin(texts, '.');
  }

  function IssueEntry(e: ValidationIssue): Json {
    JObj(map["field" := JStr(FieldName(e.loc)), "message" := JStr(e.msg), "type" := JStr(e.kind)])
  }

  /** `validation_exception_handler`: 422 with one `{field, message, type}` entry per issue,
      in the order the issues were reported. */
  function ValidationReply(issues: seq<ValidationIssue>, correlationId: Option<string>): (r: ErrorReply)
    ensures r.status == 422 && r.content.error == ErrorType(422) && r.headers == map[]
    ensures r.content.message == "Request validation failed" && r.content.correlationId == correlationId
    ensures r.content.details.Some? && r.content.details.value.JObj?
    ensures var d := r.content.details.value.fields;
            && d.Keys == {"errors"} && d["errors"].JArr?
            && |d["errors"].elems| == |issues|
            && forall i :: 0 <= i < |issues| ==>
                 var entry := d["errors"].elems[i];
                 && entry.JObj? && entry.fields.Keys == {"field", "message", "type"}
                 && entry.fields["field"] == JStr(FieldName(issues[i].loc))
                 && entry.fields["message"] == JStr(issues[i].msg)
                 && entry.fields["type"] == JStr(issues[i].kind)
  {
    var entries := seq(|issues|, i requires 0 <= i < |issues| => IssueEntry(issues[i]));
    ErrorReply(422,
               ErrorBody("validation_error", "Request validation failed", correlationId,
                         Some(JObj(map["errors" := JArr(entries)]))),
               map[])
  }

  /** A body field `("body", "tags", 0)` is reported as `body.tags.0`. */
  lemma NestedFieldName()
    ensures FieldName([Key("body"), Key("tags"), Index(0)]) == "body.tags.0"
  {
    assert LocTexts([Key("body"), Key("tags"), Index(0)]) == ["body", "tags", "0"];
  }
}

=== FILE: apim_health.dfy ===
/** The health router: per-dependency checks, the overall status of `/health`, and the
    readiness probe. What a check's probe does is a parameter: `None` when it succeeded, or
    the text of the exception it raised. */
module ApimHealth {
  import opened Wrappers

  datatype HealthStatus = Healthy | Degraded | Unhealthy

  datatype DependencyHealth = DependencyHealth(name: string, status: HealthStatus, message: Option<string>)

  /** What `asyncio.gather(..., return_exceptions=True)` yields for one check. */
  datatype CheckOutcome = Completed(health: DependencyHealth) | Failed(error: string)

  datatype HealthResponse = HealthResponse(
    status: HealthStatus,
    timestamp: string,
    version: string,
    environment: string,
    dependencies: seq<DependencyHealth>)

  datatype HealthReply = HealthReply(statusCode: int, body: HealthResponse)

  /** How bad a status is. */
  function Severity(s: HealthStatus): nat {
    match s
    case Healthy => 0
    case Degraded => 1
    case Unhealthy => 2
  }

  /** `check_database`: a failed probe makes the database unhealthy. */
  function CheckDatabase(probe: Option<string>): (d: DependencyHealth)
    ensures d.name == "database"
    ensures d.status == (if probe.Some? then Unhealthy else Healthy)
    ensures d.message == probe
  {
    match probe
    case None => DependencyHealth("database", Healthy, None)
    case Some(e) => DependencyHealth("database", Unhealthy, Some(e))
  }

  /** `check_cache`: a failed probe only degrades the cache. */
  function CheckCache(probe: Option<string>): (d: DependencyHealth)
    ensures d.name == "cache"
    ensures d.status == (if probe.Some? then Degraded else Healthy)
    ensures d.message == probe
  {
    match probe
    case None => DependencyHealth("cache", Healthy, None)
    case Some(e) => DependencyHealth("cache", Degraded, Some(e))
  }

  /** The loop over the gathered results: one entry per check, in order; a check that
      raised becomes an unhealthy dependency named `unknown`. */
  function Dependencies(checks: seq<CheckOutcome>): (deps: seq<DependencyHealth>)
    ensures |deps| == |checks|
    ensures forall i :: 0 <= i < |checks| && checks[i].Completed? ==> deps[i] == checks[i].health
    ensures forall i :: 0 <= i < |checks| && checks[i].Failed? ==>
              deps[i] == DependencyHealth("unknown", Unhealthy, Some(checks[i].error))
  {
    seq(|checks|, i requires 0 <= i < |checks| =>
      match checks[i]
      case Completed(d) => d
      case Failed(e) => DependencyHealth("unknown", Unhealthy, Some(e)))
  }

  /** The worst status among the dependencies, computed as a fold. */
  function Worst(deps: seq<DependencyHealth>): (r: HealthStatus)
    ensures forall i :: 0 <= i < |deps| ==> Severity(deps[i].status) <= Severity(r)
    ensures |deps| == 0 ==> r == Healthy
    ensures |deps| > 0 ==> exists i :: 0 <= i < |deps| && deps[i].status == r
    decreases |deps|
  {
    if |deps| == 0 then Healthy
    else
      var rest := Worst(deps[1..]);
      assert forall i :: 1 <= i < |deps| ==> deps[i] == deps[1..][i - 1];
      if Severity(deps[0].status) >= Severity(rest) then deps[0].status else rest
  }

  /** The overall status the `any(...)` chain of `health_check` picks: unhealthy if any
      dependency is, else degraded if any is, else healthy. */
  lemma OverallFollowsAnyChain(deps: seq<DependencyHealth>)
    ensures Worst(deps) == Unhealthy <==> exists i :: 0 <= i < |deps| && deps[i].status == Unhealthy
    ensures Worst(deps) == Degraded <==>
              (forall i :: 0 <= i < |deps| ==> deps[i].status != Unhealthy)
              && exists i :: 0 <= i < |deps| && deps[i].status == Degraded
    ensures Worst(deps) == Healthy <==> forall i :: 0 <= i < |deps| ==> deps[i].status == Healthy
  {
    var w := Worst(deps);
    if exists i :: 0 <= i < |deps| && deps[i].status == Unhealthy {
      var i :| 0 <= i < |deps| && deps[i].status == Unhealthy;
      assert Severity(deps[i].status) <= Severity(w);
    } else if exists i :: 0 <= i < |deps| && deps[i].status == Degraded {
      var i :| 0 <= i < |deps| && deps[i].status == Degraded;
      assert Severity(deps[i].status) <= Severity(w);
    }
  }

  /** `health_check`: 503 exactly when the overall status is unhealthy, otherwise 200. */
  function HealthCheck(checks: seq<CheckOutcome>, timestamp: string, version: string, environment: string): (r: HealthReply)
    ensures r.body.dependencies == Dependencies(checks)
    ensures r.body.status == Worst(Dependencies(checks))
    ensures r.statusCode == 503 <==> r.body.status == Unhealthy
    ensures r.statusCode == 200 || r.statusCode == 503
    ensures r.body.timestamp == timestamp && r.body.version == version && r.body.environment == environment
  {
    var deps := Dependencies(checks);
    var overall := Worst(deps);
    HealthReply(if overall == Unhealthy then 503 else 200, HealthResponse(overall, timestamp, version, environment, deps))
  }

  /** The two checks the endpoint gathers, given what their probes did. */
  function StandardChecks(databaseProbe: Option<string>, cacheProbe: Option<string>): seq<CheckOutcome> {
    [Completed(CheckDatabase(databaseProbe)), Completed(CheckCache(cacheProbe))]
  }

  /** A cache outage alone degrades the service but keeps it at 200; a database outage makes
      it 503. */
  lemma CacheOutageIsNotCritical(e: string, ts: string, v: string, env: string)
    ensures var r := HealthCheck(StandardChecks(None, Some(e)), ts, v, env);
            r.statusCode == 200 && r.body.status == Degraded
    ensures var r := HealthCheck(StandardChecks(Some(e), None), ts, v, env);
            r.statusCode == 503 && r.body.status == Unhealthy
  {
    OverallFollowsAnyChain(Dependencies(StandardChecks(None, Some(e))));
    OverallFollowsAnyChain(Dependencies(StandardChecks(Some(e), None)));
  }

  datatype ReadyReply = ReadyReply(statusCode: int, body: map<string, string>)

  /** `readiness`: only the database matters. */
  function Readiness(databaseProbe: Option<string>, timestamp: string): (r: ReadyReply)
    ensures r.statusCode == 503 <==> CheckDatabase(databaseProbe).status == Unhealthy
    ensures r.statusCode == 503 ==> r.body == map["status" := "not_ready", "reason" := "database unavailable"]
    ensures r.statusCode != 503 ==> r.statusCode == 200 && r.body == map["status" := "ready", "timestamp" := timestamp]
  {
    if CheckDatabase(databaseProbe).status == Unhealthy then
      ReadyReply(503, map["status" := "not_ready", "reason" := "database unavailable"])
    else
      ReadyReply(200, map["status" := "ready", "timestamp" := timestamp])
  }
}

=== FILE: apim_items.dfy ===
/** The items router over its in-memory store. The store is a Python dict, so it remembers
    insertion order: `order` lists the ids in that order and `items` maps each id to its
    item. `newId` and `now` stand for `uuid4()` and the `utcnow()` text. */
module ApimItems {
  import opened Wrappers
  import opened Text
  import opened RequestContext
  import opened ApimErrors
  import opened ApimAuth
  import opened ApimResponses

  datatype Item = Item(
    id: string,
    name: string,
    description: Option<string>,
    tags: seq<string>,
    createdAt: string,
    updatedAt: string,
    createdBy: Option<string>)

  datatype ItemCreate = ItemCreate(name: string, description: Option<string>, tags: seq<string>)

  /** The fields a PUT body sets; a field the body leaves out is `None`. An explicit `null`
      description is `Some(None)`. */
  datatype ItemUpdate = ItemUpdate(name: Option<string>, description: Option<Option<string>>, tags: Option<seq<string>>)

  datatype Store = Store(order: seq<string>, items: map<string, Item>)

  const EMPTY_STORE: Store := Store([], map[])

  /** Each id is listed once, the listed ids are the stored ones, and each item is stored
      under its own id. */
  /** No id occurs twice. */
  predicate Distinct(ids: seq<string>) {
    forall i, j :: 0 <= i < j < |ids| ==> ids[i] != ids[j]
  }

  predicate Valid(s: Store) {
    && Distinct(s.order)
    && (forall k :: k in s.items ==> k in s.order)
    && (forall k :: k in s.order ==> k in s.items)
    && (forall k :: k in s.items ==> s.items[k].id == k)
  }

  const NOT_FOUND: HttpException := HttpException(404, "Item not found", map[])

  /** `list(_items_store.values())`. */
  function Values(s: Store): (r: seq<Item>)
    requires Valid(s)
    ensures |r| == |s.order| && forall i :: 0 <= i < |r| ==> r[i] == s.items[s.order[i]]
    ensures forall x :: x in r ==> x in s.items.Values
  {
    seq(|s.order|, i requires 0 <= i < |s.order| => s.items[s.order[i]])
  }

  /** The search condition: the lowercased term occurs in the lowercased name, or in a
      non-empty description. */
  predicate Matches(item: Item, term: string) {
    var t := Lower(term);
    || Contains(Lower(item.name), t)
    || (item.description.Some? && |item.description.value| > 0 && Contains(Lower(item.description.value), t))
  }

  /** The list comprehension that keeps the matching items. */
  function Filter(xs: seq<Item>, term: string): (r: seq<Item>)
    ensures |r| <= |xs|
    ensures forall x :: x in r <==> x in xs && Matches(x, term)
    decreases |xs|
  {
    if |xs| == 0 then []
    else
      var rest := Filter(xs[1..], term);
      assert forall x :: x in xs <==> x == xs[0] || x in xs[1..];
      if Matches(xs[0], term) then [xs[0]] + rest else rest
  }

  /** Filtering keeps the relative order: it distributes over concatenation. */
  lemma {:induction false} FilterAppend(xs: seq<Item>, ys: seq<Item>, term: string)
    ensures Filter(xs + ys, term) == Filter(xs, term) + Filter(ys, term)
    decreases |xs|
  {
    if |xs| == 0 {
      assert xs + ys == ys;
    } else {
      assert (xs + ys)[1..] == xs[1..] + ys;
      assert (xs + ys)[0] == xs[0];
      FilterAppend(xs[1..], ys, term);
    }
  }

  /** The items a search keeps; without a (non-empty) term, all of them. */
  function Searched(s: Store, search: Option<string>): (r: seq<Item>)
    requires Valid(s)
    ensures !Given(search) ==> r == Values(s)
    ensures Given(search) ==> forall x :: x in r <==> x in Values(s) && Matches(x, search.value)
  {
    if Given(search) then Filter(Values(s), search.value) else Values(s)
  }

  function Min(a: int, b: int): int {
    if a <= b then a else b
  }

  function Max(a: int, b: int): int {
    if a >= b then a else b
  }

  /** `xs[start:start + page_size]` with `start = (page - 1) * page_size`: Python clamps
      both bounds to the list. */
  function PageSlice(xs: seq<Item>, page: int, pageSize: int): (r: seq<Item>)
    requires page >= 1 && pageSize >= 1
    ensures var start := PageStart(page, pageSize);
            && |r| == Max(0, Min(pageSize, |xs| - start))
            && forall i :: 0 <= i < |r| ==> r[i] == xs[start + i]
  {
    var start := PageStart(page, pageSize);
    if start >= |xs| then [] else xs[start..Min(start + pageSize, |xs|)]
  }

  /** A page holds only items of the list it was cut from. */
  lemma {:induction false} PageSliceWithin(xs: seq<Item>, page: int, pageSize: int)
    requires page >= 1 && pageSize >= 1
    ensures forall x :: x in PageSlice(xs, page, pageSize) ==> x in xs
  {
    var r := PageSlice(xs, page, pageSize);
    var start := PageStart(page, pageSize);
    forall x | x in r ensures x in xs {
      var i :| 0 <= i < |r| && r[i] == x;
      assert x == xs[start + i];
    }
  }

  /** `list_items`: `page` and `page_size` are within the bounds their `Query` declarations
      enforce before the handler runs. */
  function ListItems(s: Store, page: int, pageSize: int, search: Option<string>): (r: Paginated<Item>)
    requires Valid(s)
    requires page >= 1 && 1 <= pageSize <= 100
    ensures var kept := Searched(s, search);
            && r.data == PageSlice(kept, page, pageSize)
            && r.pagination.total == |kept|
            && r.pagination.page == page && r.pagination.pageSize == pageSize
            && r.pagination.totalPages == TotalPages(|kept|, pageSize)
            && (r.pagination.hasNext <==> page < r.pagination.totalPages)
            && (r.pagination.hasPrev <==> page > 1)
  {
    var kept := Searched(s, search);
    CreatePage(PageSlice(kept, page, pageSize), |kept|, page, pageSize)
  }

  /** A listed page holds stored items, and with a search term only matching ones. */
  lemma {:induction false} ListedItemsMatch(s: Store, page: int, pageSize: int, search: Option<string>)
    requires Valid(s)
    requires page >= 1 && 1 <= pageSize <= 100
    ensures forall x :: x in ListItems(s, page, pageSize, search).data ==>
              x in s.items.Values && (Given(search) ==> Matches(x, search.value))
  {
    var kept := Searched(s, search);
    var data := ListItems(s, page, pageSize, search).data;
    assert data == PageSlice(kept, page, pageSize);
    PageSliceWithin(kept, page, pageSize);
  }

  /** A listed page is empty exactly when it lies beyond the last page. */
  lemma {:induction false} EmptyPageIsBeyondLast(s: Store, page: int, pageSize: int, search: Option<string>)
    requires Valid(s)
    requires page >= 1 && 1 <= pageSize <= 100
    ensures var r := ListItems(s, page, pageSize, search);
            |r.data| == 0 <==> page > r.pagination.totalPages
  {
    var kept := Searched(s, search);
    StartBeyondEnd(|kept|, page, pageSize);
    var data := PageSlice(kept, page, pageSize);
    assert |data| == 0 <==> (page - 1) * pageSize >= |kept|;
  }

  datatype Saved = Saved(store: Store, item: Item)

  /** `create_item`: the caller must carry a user context; the new item is stored under
      the new id with both timestamps `now` and the caller as its creator. */
  function CreateItem(s: Store, h: UserHeaders, req: ItemCreate, newId: string, now: string): (r: Result<Saved, HttpException>)
    requires Valid(s)
    ensures r.Err? <==> GetUserContext(h).Err?
    ensures r.Err? ==> r.error == GetUserContext(h).error
    ensures r.Ok? ==>
              var it := r.value.item;
              && it.id == newId && it.createdAt == now && it.updatedAt == now
              && it.createdBy == h.userId
              && it.name == req.name && it.description == req.description && it.tags == req.tags
              && r.value.store.items == s.items[newId := it]
              && r.value.store.order == (if newId in s.items then s.order else s.order + [newId])
              && Valid(r.value.store)
  {
    var user :- GetUserContext(h);
    var it := Item(newId, req.name, req.description, req.tags, now, now, Some(user.userId));
    var order := if newId in s.items then s.order else s.order + [newId];
    Ok(Saved(Store(order, s.items[newId := it]), it))
  }

  /** `get_item`. */
  function GetItem(s: Store, id: string): (r: Result<Item, HttpException>)
    ensures r.Ok? <==> id in s.items
    ensures r.Ok? ==> r.value == s.items[id]
    ensures r.Err? ==> r.error == NOT_FOUND
  {
    if id in s.items then Ok(s.items[id]) else Err(NOT_FOUND)
  }

  /** An item just created can be read back. */
  lemma CreateThenGet(s: Store, h: UserHeaders, req: ItemCreate, newId: string, now: string)
    requires Valid(s)
    requires CreateItem(s, h, req, newId, now).Ok?
    ensures var saved := CreateItem(s, h, req, newId, now).value;
            GetItem(saved.store, newId) == Ok(saved.item)
  {
  }

  /** `model_copy(update={**update_data, "updated_at": now})`: the fields the body set,
      plus the new timestamp. */
  function ApplyUpdate(it: Item, upd: ItemUpdate, now: string): (r: Item)
    ensures r.id == it.id && r.createdAt == it.createdAt && r.createdBy == it.createdBy
    ensures r.updatedAt == now
    ensures r.name == (if upd.name.Some? then upd.name.value else it.name)
    ensures r.description == (if upd.description.Some? then upd.description.value else it.description)
    ensures r.tags == (if upd.tags.Some? then upd.tags.value else it.tags)
  {
    it.(name := upd.name.GetOr(it.name),
        description := upd.description.GetOr(it.description),
        tags := upd.tags.GetOr(it.tags),
        updatedAt := now)
  }

  /** `update_item`: 401 without a user context, 404 for an unknown id; otherwise the item
      is replaced in place and every other entry is kept. */
  function UpdateItem(s: Store, h: UserHeaders, id: string, upd: ItemUpdate, now: string): (r: Result<Saved, HttpException>)
    requires Valid(s)
    ensures GetUserContext(h).Err? ==> r == Err(GetUserContext(h).error)
    ensures GetUserContext(h).Ok? ==> (r.Err? <==> id !in s.items)
    ensures GetUserContext(h).Ok? && r.Err? ==> r.error == NOT_FOUND
    ensures r.Ok? ==>
              && r.value.item == ApplyUpdate(s.items[id], upd, now)
              && r.value.store.order == s.order
              && r.value.store.items.Keys == s.items.Keys
              && r.value.store.items[id] == r.value.item
              && (forall k :: k in s.items && k != id ==> r.value.store.items[k] == s.items[k])
              && Valid(r.value.store)
  {
    var _ :- GetUserContext(h);
    if id !in s.items then Err(NOT_FOUND)
    else
      var it := ApplyUpdate(s.items[id], upd, now);
      Ok(Saved(Store(s.order, s.items[id := it]), it))
  }

  /** The id list with one id taken out: the ids before it and the ids after it, each in
      their order. */
  function Without(order: seq<string>, id: string): (r: seq<string>)
    ensures forall k :: k in r <==> k in order && k != id
    ensures Distinct(order) ==> Distinct(r)
    ensures id !in order ==> r == order
    ensures forall i :: 0 <= i < |order| && order[i] == id && Distinct(order) ==> r == order[..i] + order[i + 1..]
    decreases |order|
  {
    if |order| == 0 then []
    else
      var rest := Without(order[1..], id);
      assert forall k :: k in order <==> k == order[0] || k in order[1..];
      TailDistinct(order);
      if order[0] == id then
        DropFirst(order, id, rest);
        rest
      else
        KeepFirst(order, id, rest);
        [order[0]] + rest
  }

  /** The tail of a list without repeats has none, and lacks the head. */
  lemma TailDistinct(order: seq<string>)
    requires |order| > 0
    ensures Distinct(order) ==> Distinct(order[1..]) && order[0] !in order[1..]
  {
    if Distinct(order) {
      forall j | 0 <= j < |order[1..]| ensures order[1..][j] != order[0] {
        assert order[1..][j] == order[j + 1];
      }
    }
  }

  /** Taking out the id at the head leaves the tail, which `rest` is once it lacks the id. */
  lemma {:induction false} DropFirst(order: seq<string>, id: string, rest: seq<string>)
    requires |order| > 0 && order[0] == id
    requires id !in order[1..] ==> rest == order[1..]
    requires Distinct(order) ==> Distinct(order[1..]) && order[0] !in order[1..]
    ensures forall i :: 0 <= i < |order| && order[i] == id && Distinct(order) ==> rest == order[..i] + order[i + 1..]
  {
    if Distinct(order) {
      assert forall i :: 0 <= i < |order| && order[i] == id ==> i == 0;
      assert order[..0] + order[1..] == order[1..];
    }
  }

  /** Keeping the head in front of the rest with the id taken out keeps every position. */
  lemma {:induction false} KeepFirst(order: seq<string>, id: string, rest: seq<string>)
    requires |order| > 0 && order[0] != id
    requires id !in order[1..] ==> rest == order[1..]
    requires forall i :: 0 <= i < |order[1..]| && order[1..][i] == id && Distinct(order[1..]) ==>
               rest == order[1..][..i] + order[1..][i + 1..]
    requires Distinct(order) ==> Distinct(order[1..]) && order[0] !in order[1..]
    ensures id !in order ==> [order[0]] + rest == order
    ensures forall i :: 0 <= i < |order| && order[i] == id && Distinct(order) ==>
              [order[0]] + rest == order[..i] + order[i + 1..]
  {
    if id !in order {
      assert id !in order[1..] by {
        forall j | 0 <= j < |order[1..]| ensures order[1..][j] != id {
          assert order[1..][j] == order[j + 1];
        }
      }
      assert [order[0]] + order[1..] == order;
    }
    forall i | 0 <= i < |order| && order[i] == id && Distinct(order)
      ensures [order[0]] + rest == order[..i] + order[i + 1..]
    {
      assert order[1..][i - 1] == id;
      assert rest == order[1..][..i - 1] + order[1..][i..];
      assert order[..i] == [order[0]] + order[1..][..i - 1];
      assert order[i + 1..] == order[1..][i..];
    }
  }

  /** The roles `delete_item` demands. */
  const DELETE_ROLES: seq<string> := ["Admin", "Editor"]

  /** `delete_item`: the role gate runs first, then the 404 check; on success exactly that
      id is gone. */
  function DeleteItem(s: Store, h: UserHeaders, id: string): (r: Result<Store, HttpException>)
    requires Valid(s)
    ensures RequireRoles(h, DELETE_ROLES).Err? ==> r == Err(RequireRoles(h, DELETE_ROLES).error)
    ensures RequireRoles(h, DELETE_ROLES).Ok? ==> (r.Err? <==> id !in s.items)
    ensures RequireRoles(h, DELETE_ROLES).Ok? && r.Err? ==> r.error == NOT_FOUND
    ensures r.Ok? ==>
              && r.value.items == s.items - {id}
              && (exists i :: 0 <= i < |s.order| && s.order[i] == id && r.value.order == s.order[..i] + s.order[i + 1..])
              && Valid(r.value)
  {
    var _ :- RequireRoles(h, DELETE_ROLES);
    if id !in s.items then Err(NOT_FOUND)
    else Ok(Store(Without(s.order, id), s.items - {id}))
  }

  /** After a delete the id reads as 404, while every other item reads as before. */
  lemma DeleteThenGet(s: Store, h: UserHeaders, id: string, other: string)
    requires Valid(s)
    requires DeleteItem(s, h, id).Ok?
    requires other != id
    ensures GetItem(DeleteItem(s, h, id).value, id) == Err(NOT_FOUND)
    ensures GetItem(DeleteItem(s, h, id).value, other) == GetItem(s, other)
  {
  }
}

=== FILE: apim_responses.dfy ===
/** `PaginatedResponse.create`: a page of results with its pagination metadata. */
module ApimResponses {
  datatype PaginationMeta = PaginationMeta(
    total: int,
    page: int,
    pageSize: int,
    totalPages: int,
    hasNext: bool,
    hasPrev: bool)

  datatype Paginated<T> = Paginated(data: seq<T>, pagination: PaginationMeta)

  /** `(total + page_size - 1) // page_size if page_size > 0 else 0`. Python's `//` floors,
      which for a positive divisor is Dafny's `/`. For a positive page size the result is the
      least page count whose pages hold `total` items. */
  function TotalPages(total: int, pageSize: int): (tp: int)
    ensures pageSize <= 0 ==> tp == 0
    ensures pageSize > 0 ==> (tp - 1) * pageSize < total <= tp * pageSize
    ensures pageSize > 0 && total >= 0 ==> tp >= 0
  {
    if pageSize > 0 then
      var n := total + pageSize - 1;
      var q := n / pageSize;
      assert n == q * pageSize + n % pageSize;
      assert (q - 1) * pageSize == q * pageSize - pageSize;
      q
    else 0
  }

  /** `PaginatedResponse.create(items, total, page, page_size)`. */
  function CreatePage<T>(items: seq<T>, total: int, page: int, pageSize: int): (r: Paginated<T>)
    ensures r.data == items
    ensures r.pagination.total == total && r.pagination.page == page && r.pagination.pageSize == pageSize
    ensures r.pagination.totalPages == TotalPages(total, pageSize)
    ensures r.pagination.hasNext <==> page < r.pagination.totalPages
    ensures r.pagination.hasPrev <==> page > 1
  {
    var tp := TotalPages(total, pageSize);
    Paginated(items, PaginationMeta(total, page, pageSize, tp, page < tp, page > 1))
  }

  /** Scaling by a non-negative factor keeps the order. */
  lemma {:induction false} ScaleMonotone(a: int, b: int, c: int)
    requires a <= b && c >= 0
    ensures a * c <= b * c
  {
    var d := b - a;
    assert d * c >= 0;
    assert b * c == a * c + d * c;
  }

  /** Where page `page` (counting from 1) starts. */
  function PageStart(page: int, pageSize: int): (start: nat)
    requires page >= 1 && pageSize >= 1
    ensures start == (page - 1) * pageSize
  {
    ScaleMonotone(0, page - 1, pageSize);
    (page - 1) * pageSize
  }

  /** Page `page` (counting from 1) starts at or beyond item `total` exactly when it lies
      beyond the last page. */
  lemma {:induction false} StartBeyondEnd(total: int, page: int, pageSize: int)
    requires pageSize > 0
    ensures (page - 1) * pageSize >= total <==> page > TotalPages(total, pageSize)
  {
    var tp := TotalPages(total, pageSize);
    if page > tp {
      ScaleMonotone(tp, page - 1, pageSize);
    } else {
      ScaleMonotone(page - 1, tp - 1, pageSize);
    }
  }

  /** With a positive page size, there is a next page exactly when items remain beyond the
      first `page` pages. */
  lemma {:induction false} HasNextMeansMoreItems<T>(items: seq<T>, total: int, page: int, pageSize: int)
    requires pageSize > 0
    ensures CreatePage(items, total, page, pageSize).pagination.hasNext <==> page * pageSize < total
  {
    StartBeyondEnd(total, page + 1, pageSize);
    assert (page + 1 - 1) * pageSize == page * pageSize;
  }

  /** An empty result has no pages, and from page 1 on no next page. */
  lemma EmptyResultHasNoPages<T>(items: seq<T>, page: int, pageSize: int)
    requires page >= 1
    ensures var m := CreatePage(items, 0, page, pageSize).pagination;
            m.totalPages == 0 && !m.hasNext
  {
  }

  /** `total_pages` for 45 items in pages of 20 is 3, and page 3 is the last. */
  lemma PartialLastPage<T>(items: seq<T>)
    ensures var m := CreatePage(items, 45, 3, 20).pagination;
            m.totalPages == 3 && !m.hasNext && m.hasPrev
  {
  }
}

=== FILE: apim_security.dfy ===
/** `SecurityHeadersMiddleware.dispatch`: the transform it applies to every response's
    headers. Starlette compares header names case-insensitively and stores them lower-cased,
    so the headers are a map whose keys are those lower-cased names. */
module ApimSecurity {
  import opened Wrappers
  import ApimErrors

  type Headers = map<string, string>

  const HSTS_VALUE: string := "max-age=31536000; includeSubDomains"

  /** The four headers set on every response, with their values. */
  const FIXED_HEADERS: Headers := map[
    "x-content-type-options" := "nosniff",
    "x-frame-options" := "DENY",
    "x-xss-protection" := "1; mode=block",
    "referrer-policy" := "strict-origin-when-cross-origin"]

  /** The server-identifying headers that are removed. */
  const HIDDEN_HEADERS: set<string> := {"server", "x-powered-by"}

  /** `request.url.hostname not in ["localhost", "127.0.0.1"]`; a missing hostname is not in
      the list. */
  predicate WantsHsts(hostname: Option<string>) {
    hostname != Some("localhost") && hostname != Some("127.0.0.1")
  }

  /** The headers this middleware writes or removes. */
  predicate Managed(k: string) {
    k in FIXED_HEADERS || k in HIDDEN_HEADERS || k == "strict-transport-security"
  }

  function SecureHeaders(h: Headers, hostname: Option<string>): (r: Headers)
    ensures forall k :: k in FIXED_HEADERS ==> k in r && r[k] == FIXED_HEADERS[k]
    ensures WantsHsts(hostname) ==> "strict-transport-security" in r && r["strict-transport-security"] == HSTS_VALUE
    ensures !WantsHsts(hostname) ==>
              && ("strict-transport-security" in r <==> "strict-transport-security" in h)
              && ("strict-transport-security" in h ==> r["strict-transport-security"] == h["strict-transport-security"])
    ensures forall k :: k in HIDDEN_HEADERS ==> k !in r
    ensures forall k :: !Managed(k) ==> (k in r <==> k in h) && (k in h ==> r[k] == h[k])
  {
    var fixed := h + FIXED_HEADERS;
    var withHsts := if WantsHsts(hostname) then fixed["strict-transport-security" := HSTS_VALUE] else fixed;
    withHsts - HIDDEN_HEADERS
  }

  /** What `dispatch` does to `response.headers`, a Starlette `MutableHeaders`, one statement
      at a time. Names are the lower-cased keys the headers are stored under. */
  datatype HeaderOp =
    | SetHeader(name: string, value: string)  // `headers[name] = value`
    | DeleteHeader(name: string)              // `del headers[name]`: no error when absent
    | PopHeader(name: string)                 // `headers.pop(name, None)`

  /** One statement; `None` is an exception. `MutableHeaders` defines item assignment and
      deletion but not `pop` (its base `Headers` is a read-only mapping), so a `pop` call
      raises `AttributeError` whatever the headers hold. Deletion drops every line with that
      name and does nothing when there is none. */
  function ApplyOp(h: Headers, op: HeaderOp): Option<Headers> {
    match op
    case SetHeader(k, v) => Some(h[k := v])
    case DeleteHeader(k) => Some(h - {k})
    case PopHeader(_) => None
  }

  /** The statements in order; the first exception ends the run. */
  function RunOps(h: Headers, ops: seq<HeaderOp>): Option<Headers>
    decreases |ops|
  {
    if |ops| == 0 then Some(h)
    else match ApplyOp(h, ops[0])
      case None => None
      case Some(h') => RunOps(h', ops[1..])
  }

  /** Any `pop` among the statements raises: nothing comes back. */
  lemma {:induction false} PopRaises(h: Headers, ops: seq<HeaderOp>, i: nat)
    requires i < |ops| && ops[i].PopHeader?
    ensures RunOps(h, ops).None?
    decreases |ops|
  {
    if i > 0 {
      match ApplyOp(h, ops[0])
      case None =>
      case Some(h') => PopRaises(h', ops[1..], i - 1);
    }
  }

  /** Running two lists of statements is running the first, then the second on its result. */
  lemma {:induction false} RunOpsAppend(h: Headers, a: seq<HeaderOp>, b: seq<HeaderOp>)
    ensures RunOps(h, a + b) == if RunOps(h, a).None? then None else RunOps(RunOps(h, a).value, b)
    decreases |a|
  {
    if |a| == 0 {
      assert a + b == b;
    } else {
      assert (a + b)[0] == a[0] && (a + b)[1..] == a[1..] + b;
      match ApplyOp(h, a[0])
      case None =>
      case Some(h') => RunOpsAppend(h', a[1..], b);
    }
  }

  /** The four fixed headers, then HSTS when the host is not local. */
  function SetOps(hostname: Option<string>): seq<HeaderOp> {
    [SetHeader("x-content-type-options", "nosniff"),
     SetHeader("x-frame-options", "DENY"),
     SetHeader("x-xss-protection", "1; mode=block"),
     SetHeader("referrer-policy", "strict-origin-when-cross-origin")]
    + (if WantsHsts(hostname) then [SetHeader("strict-transport-security", HSTS_VALUE)] else [])
  }

  /** The statements of `dispatch` as written: the settings, then two `pop` calls. */
  function AsWrittenOps(hostname: Option<string>): seq<HeaderOp> {
    SetOps(hostname) + [PopHeader("server"), PopHeader("x-powered-by")]
  }

  /** `dispatch` as written: the headers it returns, or, once the `pop` call raises, the reply
      of the application's catch-all exception handler. */
  function SecureHeadersAsWritten(h: Headers, hostname: Option<string>, correlationId: Option<string>): (r: Result<Headers, ApimErrors.ErrorReply>)
    ensures r.Ok? <==> RunOps(h, AsWrittenOps(hostname)).Some?
    ensures r.Err? ==> r.error == ApimErrors.UnhandledReply(correlationId)
  {
    match RunOps(h, AsWrittenOps(hostname))
    case Some(h') => Ok(h')
    case None => Err(ApimErrors.UnhandledReply(correlationId))
  }

  /** As written, the middleware never returns the response: every request, local or not,
      ends in the 500 `internal_error` reply. */
  lemma AsWrittenAlwaysFails(h: Headers, hostname: Option<string>, correlationId: Option<string>)
    ensures SecureHeadersAsWritten(h, hostname, correlationId) == Err(ApimErrors.UnhandledReply(correlationId))
    ensures SecureHeadersAsWritten(h, hostname, correlationId).error.status == 500
  {
    var ops := AsWrittenOps(hostname);
    assert ops[|ops| - 2] == PopHeader("server");
    PopRaises(h, ops, |ops| - 2);
  }

  /** The corrected statements: the same settings, then `del` of each hidden header. */
  function CorrectedOps(hostname: Option<string>): seq<HeaderOp> {
    SetOps(hostname) + [DeleteHeader("server"), DeleteHeader("x-powered-by")]
  }

  /** The four fixed headers are set on top of whatever the response had. */
  lemma FourSets(h: Headers)
    ensures RunOps(h, SetOps(None)[..4]) == Some(h + FIXED_HEADERS)
  {
    var four := SetOps(None)[..4];
    var h1 := h["x-content-type-options" := "nosniff"];
    var h2 := h1["x-frame-options" := "DENY"];
    var h3 := h2["x-xss-protection" := "1; mode=block"];
    var h4 := h3["referrer-policy" := "strict-origin-when-cross-origin"];
    assert RunOps(h4, four[4..]) == Some(h4);
    assert RunOps(h3, four[3..]) == Some(h4);
    assert RunOps(h2, four[2..]) == Some(h4);
    assert RunOps(h1, four[1..]) == Some(h4);
    assert h4 == h + FIXED_HEADERS;
  }

  /** The settings give the fixed headers and, off localhost, HSTS. */
  lemma SetOpsResult(h: Headers, hostname: Option<string>)
    ensures var fixed := h + FIXED_HEADERS;
            RunOps(h, SetOps(hostname))
            == Some(if WantsHsts(hostname) then fixed["strict-transport-security" := HSTS_VALUE] else fixed)
  {
    var four := SetOps(None)[..4];
    var hsts := if WantsHsts(hostname) then [SetHeader("strict-transport-security", HSTS_VALUE)] else [];
    assert SetOps(hostname) == four + hsts;
    RunOpsAppend(h, four, hsts);
    FourSets(h);
  }

  /** Deleting the hidden headers removes exactly those, whether or not they are there. */
  lemma HiddenDeletes(g: Headers)
    ensures RunOps(g, [DeleteHeader("server"), DeleteHeader("x-powered-by")]) == Some(g - HIDDEN_HEADERS)
  {
    var ops := [DeleteHeader("server"), DeleteHeader("x-powered-by")];
    var g1 := g - {"server"};
    var g2 := g1 - {"x-powered-by"};
    assert RunOps(g2, ops[2..]) == Some(g2);
    assert RunOps(g1, ops[1..]) == Some(g2);
    assert g2 == g - HIDDEN_HEADERS;
  }

  /** The corrected statements never raise, and they compute `SecureHeaders`. */
  lemma CorrectedOpsMatch(h: Headers, hostname: Option<string>)
    ensures RunOps(h, CorrectedOps(hostname)) == Some(SecureHeaders(h, hostname))
  {
    var hidden := [DeleteHeader("server"), DeleteHeader("x-powered-by")];
    RunOpsAppend(h, SetOps(hostname), hidden);
    SetOpsResult(h, hostname);
    HiddenDeletes(RunOps(h, SetOps(hostname)).value);
  }

  /** The transform is idempotent: a response that already went through it is left as is. */
  lemma SecureHeadersIdempotent(h: Headers, hostname: Option<string>)
    ensures SecureHeaders(SecureHeaders(h, hostname), hostname) == SecureHeaders(h, hostname)
  {
    var once := SecureHeaders(h, hostname);
    var twice := SecureHeaders(once, hostname);
    assert forall k :: k in twice <==> k in once;
  }

  /** A local request gets no HSTS header it did not already have. */
  lemma NoHstsOnLocalhost(h: Headers)
    requires "strict-transport-security" !in h
    ensures "strict-transport-security" !in SecureHeaders(h, Some("localhost"))
    ensures "strict-transport-security" !in SecureHeaders(h, Some("127.0.0.1"))
  {
  }
}

=== FILE: json.dfy ===
/** Already-decoded JSON values, as `json.loads` returns them, and the dictionary reads
    the UCP client performs on them (`d.get(key, default)` followed by the type the
    client's dataclasses expect). Numbers are integers only. */
module Json {
  import opened Wrappers

  datatype Json =
    | JNull
    | JBool(b: bool)
    | JNum(n: int)
    | JStr(s: string)
    | JArr(elems: seq<Json>)
    | JObj(fields: map<string, Json>)

  const EmptyObj: Json := JObj(map[])

  /** Python's `bool(value)`. */
  predicate Truthy(j: Json) {
    match j
    case JNull => false
    case JBool(b) => b
    case JNum(n) => n != 0
    case JStr(s) => |s| > 0
    case JArr(xs) => |xs| > 0
    case JObj(m) => |m| > 0
  }

  /** `d.get(key, default)`. */
  function Get(d: map<string, Json>, key: string, default: Json): (r: Json)
    ensures key in d ==> r == d[key]
    ensures key !in d ==> r == default
  {
    if key in d then d[key] else default
  }

  /** The fields of a value the client calls `.get` on; anything but an object has no `.get`. */
  function AsObject(j: Json): (r: Option<map<string, Json>>)
    ensures r.Some? <==> j.JObj?
    ensures r.Some? ==> r.value == j.fields
  {
    if j.JObj? then Some(j.fields) else None
  }

  /** `d.get(key, {})` used as a dictionary. */
  function GetObject(d: map<string, Json>, key: string): (r: Option<map<string, Json>>)
    ensures key !in d ==> r == Some(map[])
    ensures key in d ==> (r.Some? <==> d[key].JObj?)
    ensures key in d && r.Some? ==> r.value == d[key].fields
  {
    AsObject(Get(d, key, EmptyObj))
  }

  /** `d.get(key, default)` used as a string. */
  function GetString(d: map<string, Json>, key: string, default: string): (r: Option<string>)
    ensures key !in d ==> r == Some(default)
    ensures key in d ==> (r.Some? <==> d[key].JStr?)
    ensures key in d && r.Some? ==> d[key] == JStr(r.value)
  {
    match Get(d, key, JStr(default))
    case JStr(s) => Some(s)
    case _ => None
  }

  /** `d.get(key, default)` used as an integer. */
  function GetInt(d: map<string, Json>, key: string, default: int): (r: Option<int>)
    ensures key !in d ==> r == Some(default)
    ensures key in d ==> (r.Some? <==> d[key].JNum?)
    ensures key in d && r.Some? ==> d[key] == JNum(r.value)
  {
    match Get(d, key, JNum(default))
    case JNum(n) => Some(n)
    case _ => None
  }

  /** `d.get(key)` used as an optional string: absent and `null` both give Python's `None`. */
  function GetOptString(d: map<string, Json>, key: string): (r: Option<Option<string>>)
    ensures key !in d || d[key] == JNull ==> r == Some(None)
    ensures key in d && d[key].JStr? ==> r == Some(Some(d[key].s))
    ensures r.None? <==> key in d && !d[key].JNull? && !d[key].JStr?
  {
    match Get(d, key, JNull)
    case JNull => Some(None)
    case JStr(s) => Some(Some(s))
    case _ => None
  }

  /** `d.get(key)` used as an optional integer. */
  function GetOptInt(d: map<string, Json>, key: string): (r: Option<Option<int>>)
    ensures key !in d || d[key] == JNull ==> r == Some(None)
    ensures key in d && d[key].JNum? ==> r == Some(Some(d[key].n))
    ensures r.None? <==> key in d && !d[key].JNull? && !d[key].JNum?
  {
    match Get(d, key, JNull)
    case JNull => Some(None)
    case JNum(n) => Some(Some(n))
    case _ => None
  }

  /** The elements `for x in value` visits when every element is then used as a dictionary:
      a list yields its elements, an empty string or empty object yields nothing, and any
      other value either is not iterable or yields strings, which have no `.get`. */
  function IterElements(j: Json): (r: Option<seq<Json>>)
    ensures j.JArr? ==> r == Some(j.elems)
    ensures r.Some? && !j.JArr? ==> r.value == []
  {
    match j
    case JArr(xs) => Some(xs)
    case JStr(s) => if |s| == 0 then Some([]) else None
    case JObj(m) => if |m| == 0 then Some([]) else None
    case _ => None
  }

  /** `for x in d.get(key, [])` over dictionaries. */
  function GetElements(d: map<string, Json>, key: string): (r: Option<seq<Json>>)
    ensures key !in d ==> r == Some([])
    ensures key in d && d[key].JArr? ==> r == Some(d[key].elems)
  {
    IterElements(Get(d, key, JArr([])))
  }
}

=== FILE: text.dfy ===
/** The handful of Python `str` operations the modelled code relies on, restricted to ASCII:
    `isspace`, `lower`, `in` (substring), `split(sep)`, `split()`, `strip()`, `rstrip(c)`,
    `sep.join(parts)` and `str(n)` for a natural number. */
module Text {

  /** `c.isspace()` for ASCII: tab, line feed, vertical tab, form feed, carriage return,
      the four separator controls 0x1C..0x1F, and space. */
  predicate IsSpace(c: char) {
    ('\t' <= c <= '\r') || ('\U{1C}' <= c <= ' ')
  }

  predicate IsUpper(c: char) {
    'A' <= c <= 'Z'
  }

  predicate IsLowerLetter(c: char) {
    'a' <= c <= 'z'
  }

  predicate IsDigit(c: char) {
    '0' <= c <= '9'
  }

  /** `c.isalpha()` for ASCII. */
  predicate IsAlpha(c: char) {
    IsUpper(c) || IsLowerLetter(c)
  }

  /** `c.isalnum()` for ASCII. */
  predicate IsAlnum(c: char) {
    IsAlpha(c) || IsDigit(c)
  }

  function LowerChar(c: char): char {
    if IsUpper(c) then (c as int + 32) as char else c
  }

  /** `s.lower()` for ASCII: every upper-case letter is replaced by its lower-case form. */
  function Lower(s: string): (r: string)
    ensures |r| == |s|
    ensures forall i :: 0 <= i < |s| ==> r[i] == LowerChar(s[i])
  {
    seq(|s|, i requires 0 <= i < |s| => LowerChar(s[i]))
  }

  /** Lower-casing twice is lower-casing once. */
  lemma LowerIdempotent(s: string)
    ensures Lower(Lower(s)) == Lower(s)
  {
    assert forall i :: 0 <= i < |s| ==> !IsUpper(Lower(s)[i]);
  }

  /** `needle in hay`: some suffix of `hay` starts with `needle`. */
  predicate Contains(hay: string, needle: string)
    decreases |hay|
  {
    needle <= hay || (|hay| > 0 && Contains(hay[1..], needle))
  }

  /** `needle` occurs in `hay` starting at position `i`. */
  predicate OccursAt(hay: string, needle: string, i: int) {
    0 <= i && i + |needle| <= |hay| && hay[i..i + |needle|] == needle
  }

  /** An occurrence past the first character is an occurrence in the rest of the text. */
  lemma OccursShift(hay: string, needle: string, i: int)
    requires |hay| > 0 && i >= 1
    ensures OccursAt(hay, needle, i) <==> OccursAt(hay[1..], needle, i - 1)
  {
    if i + |needle| <= |hay| {
      assert hay[1..][i - 1..i - 1 + |needle|] == hay[i..i + |needle|];
    }
  }

  /** `Contains` agrees with the positional definition of a substring. */
  lemma {:induction false} ContainsAt(hay: string, needle: string)
    ensures Contains(hay, needle) <==> exists i :: OccursAt(hay, needle, i)
    decreases |hay|
  {
    if needle <= hay {
      assert OccursAt(hay, needle, 0);
    } else if |hay| == 0 {
      assert forall i :: !OccursAt(hay, needle, i);
    } else {
      ContainsAt(hay[1..], needle);
      if exists i :: OccursAt(hay, needle, i) {
        var i :| OccursAt(hay, needle, i);
        assert i != 0;
        OccursShift(hay, needle, i);
      }
      if exists j :: OccursAt(hay[1..], needle, j) {
        var j :| OccursAt(hay[1..], needle, j);
        OccursShift(hay, needle, j + 1);
      }
    }
  }

  /** A text contains whatever is spliced into it. */
  lemma ContainsInfix(p: string, needle: string, q: string)
    ensures Contains(p + needle + q, needle)
  {
    var hay := p + needle + q;
    assert hay[|p|..|p| + |needle|] == needle;
    assert OccursAt(hay, needle, |p|);
    ContainsAt(hay, needle);
  }

  /** A needle matched character by character at position `i` is contained. */
  lemma FoundAt(hay: string, needle: string, i: int)
    requires 0 <= i && i + |needle| <= |hay|
    requires forall j :: 0 <= j < |needle| ==> hay[i + j] == needle[j]
    ensures Contains(hay, needle)
  {
    assert hay[i..i + |needle|] == needle;
    assert OccursAt(hay, needle, i);
    ContainsAt(hay, needle);
  }

  /** Every character of a contained needle appears in the text. */
  lemma CharInside(hay: string, needle: string, c: char)
    requires Contains(hay, needle) && c in needle
    ensures c in hay
  {
    ContainsAt(hay, needle);
    var i :| OccursAt(hay, needle, i);
    var k :| 0 <= k < |needle| && needle[k] == c;
    assert hay[i + k] == hay[i..i + |needle|][k];
  }

  /** A text lacking one of the needle's characters does not contain it. */
  lemma MissingChar(hay: string, needle: string, c: char)
    requires c in needle && c !in hay
    ensures !Contains(hay, needle)
  {
    if Contains(hay, needle) {
      CharInside(hay, needle, c);
    }
  }

  /** The characters `x` and `y` stand side by side at position `i` of `s`. */
  predicate PairAt(s: string, i: int, x: char, y: char) {
    0 <= i && i + 1 < |s| && s[i] == x && s[i + 1] == y
  }

  /** Every pair of neighbouring characters of a contained needle appears in the text. */
  lemma PairInside(hay: string, needle: string, k: int, x: char, y: char)
    requires Contains(hay, needle)
    requires 0 <= k && k + 1 < |needle| && needle[k] == x && needle[k + 1] == y
    ensures exists i :: PairAt(hay, i, x, y)
  {
    ContainsAt(hay, needle);
    var i :| OccursAt(hay, needle, i);
    assert hay[i + k] == hay[i..i + |needle|][k];
    assert hay[i + k + 1] == hay[i..i + |needle|][k + 1];
    assert PairAt(hay, i + k, x, y);
  }

  /** A text that never has `x` directly followed by `y` contains no needle that does. */
  lemma MissingPair(hay: string, needle: string, k: int, x: char, y: char)
    requires 0 <= k && k + 1 < |needle| && needle[k] == x && needle[k + 1] == y
    requires forall i :: !PairAt(hay, i, x, y)
    ensures !Contains(hay, needle)
  {
    if Contains(hay, needle) {
      PairInside(hay, needle, k, x, y);
    }
  }

  /** `needle` occurs at position `i` of the lower-cased `text`, read off `text` itself. */
  predicate FoundLowerAt(text: string, needle: string, i: int) {
    0 <= i && i + |needle| <= |text| && forall j :: 0 <= j < |needle| ==> LowerChar(text[i + j]) == needle[j]
  }

  lemma ContainsLower(text: string, needle: string, i: int)
    requires FoundLowerAt(text, needle, i)
    ensures Contains(Lower(text), needle)
  {
    FoundAt(Lower(text), needle, i);
  }

  /** No character of the lower-cased `text` is one of `cs`. */
  predicate AvoidsLower(text: string, cs: string) {
    forall i :: 0 <= i < |text| ==> LowerChar(text[i]) !in cs
  }

  lemma MissingLower(text: string, needle: string, c: char, cs: string)
    requires AvoidsLower(text, cs) && c in cs && c in needle
    ensures !Contains(Lower(text), needle)
  {
    MissingChar(Lower(text), needle, c);
  }

  /** `x` directly followed by `y` at position `i` of the lower-cased `text`. */
  predicate LowerPairAt(text: string, i: int, x: char, y: char) {
    0 <= i && i + 1 < |text| && LowerChar(text[i]) == x && LowerChar(text[i + 1]) == y
  }

  /** The lower-cased `text` never has `x` directly followed by `y`. */
  ghost predicate AvoidsLowerPair(text: string, x: char, y: char) {
    forall i :: !LowerPairAt(text, i, x, y)
  }

  lemma MissingLowerPair(text: string, needle: string, k: int, x: char, y: char)
    requires AvoidsLowerPair(text, x, y)
    requires 0 <= k && k + 1 < |needle| && needle[k] == x && needle[k + 1] == y
    ensures !Contains(Lower(text), needle)
  {
    assert forall i :: PairAt(Lower(text), i, x, y) ==> LowerPairAt(text, i, x, y);
    MissingPair(Lower(text), needle, k, x, y);
  }

  /** `s.split(sep)` for a one-character separator: the pieces between separators, empty
      pieces included, so there is always one more piece than separators. */
  function Split(s: string, sep: char): (parts: seq<string>)
    ensures |parts| >= 1
    ensures forall i :: 0 <= i < |parts| ==> sep !in parts[i]
    decreases |s|
  {
    if |s| == 0 then [""]
    else
      var rest := Split(s[1..], sep);
      if s[0] == sep then [""] + rest
      else [[s[0]] + rest[0]] + rest[1..]
  }

  /** `sep.join(parts)`. */
  function Join(parts: seq<string>, sep: string): string
    decreases |parts|
  {
    if |parts| == 0 then ""
    else if |parts| == 1 then parts[0]
    else parts[0] + sep + Join(parts[1..], sep)
  }

  lemma JoinConsChar(c: char, p: string, tail: seq<string>, sep: string)
    ensures Join([[c] + p] + tail, sep) == [c] + Join([p] + tail, sep)
  {
    if |tail| > 0 {
      assert ([[c] + p] + tail)[1..] == tail;
      assert ([p] + tail)[1..] == tail;
    }
  }

  /** Joining the pieces of a split with the separator gives back the original text. */
  lemma {:induction false} JoinSplit(s: string, sep: char)
    ensures Join(Split(s, sep), [sep]) == s
    decreases |s|
  {
    if |s| > 0 {
      var rest := Split(s[1..], sep);
      JoinSplit(s[1..], sep);
      if s[0] == sep {
        assert ([""] + rest)[1..] == rest;
        assert Join([""] + rest, [sep]) == [sep] + Join(rest, [sep]);
      } else {
        assert rest == [rest[0]] + rest[1..];
        JoinConsChar(s[0], rest[0], rest[1..], [sep]);
      }
    }
  }

  /** Splitting text that begins with a separator-free prefix glues the prefix to the first piece. */
  lemma {:induction false} SplitPrefix(p: string, t: string, sep: char)
    requires sep !in p
    ensures Split(p + t, sep) == [p + Split(t, sep)[0]] + Split(t, sep)[1..]
    decreases |p|
  {
    if |p| > 0 {
      assert (p + t)[1..] == p[1..] + t;
      SplitPrefix(p[1..], t, sep);
      assert [p[0]] + (p[1..] + Split(t, sep)[0]) == p + Split(t, sep)[0];
    } else {
      var parts := Split(t, sep);
      assert p + t == t;
      assert p + parts[0] == parts[0];
      assert parts == [parts[0]] + parts[1..];
    }
  }

  /** Splitting the join of separator-free pieces gives back the pieces. */
  lemma {:induction false} SplitJoin(parts: seq<string>, sep: char)
    requires |parts| >= 1
    requires forall i :: 0 <= i < |parts| ==> sep !in parts[i]
    ensures Split(Join(parts, [sep]), sep) == parts
    decreases |parts|
  {
    if |parts| == 1 {
      SplitPrefix(parts[0], "", sep);
      assert parts[0] + "" == parts[0];
      assert Split("", sep) == [""];
      assert [parts[0] + ""] + [""][1..] == parts;
    } else {
      var t := Join(parts[1..], [sep]);
      SplitJoin(parts[1..], sep);
      assert Join(parts, [sep]) == parts[0] + ([sep] + t);
      SplitPrefix(parts[0], [sep] + t, sep);
      assert ([sep] + t)[1..] == t;
      assert Split([sep] + t, sep) == [""] + Split(t, sep);
      assert parts[0] + "" == parts[0];
      assert parts == [parts[0]] + parts[1..];
    }
  }

  /** `s.split(sep)[0]`: the text before the first separator, or all of `s`. */
  function FirstField(s: string, sep: char): (r: string)
    ensures r <= s && sep !in r
    ensures |r| == |s| || s[|r|] == sep
    decreases |s|
  {
    if |s| == 0 || s[0] == sep then "" else [s[0]] + FirstField(s[1..], sep)
  }

  lemma {:induction false} FirstFieldIsFirstPiece(s: string, sep: char)
    ensures Split(s, sep)[0] == FirstField(s, sep)
    decreases |s|
  {
    if |s| > 0 && s[0] != sep {
      FirstFieldIsFirstPiece(s[1..], sep);
    }
  }

  /** `s.rstrip(chars)` where `drop` recognises the characters to strip: the longest prefix
      of `s` that does not end in a dropped character. */
  function RStripBy(s: string, drop: char -> bool): (r: string)
    ensures r <= s
    ensures |r| == 0 || !drop(r[|r| - 1])
    ensures forall i :: |r| <= i < |s| ==> drop(s[i])
    decreases |s|
  {
    if |s| > 0 && drop(s[|s| - 1]) then RStripBy(s[..|s| - 1], drop) else s
  }

  /** `s.lstrip(chars)`: the longest suffix of `s` that does not start with a dropped character. */
  function LStripBy(s: string, drop: char -> bool): (r: string)
    ensures |r| <= |s| && r == s[|s| - |r|..]
    ensures |r| == 0 || !drop(r[0])
    ensures forall i :: 0 <= i < |s| - |r| ==> drop(s[i])
    decreases |s|
  {
    if |s| > 0 && drop(s[0]) then LStripBy(s[1..], drop) else s
  }

  /** `s.rstrip('/')`. */
  function RStripSlash(s: string): (r: string)
    ensures r <= s
    ensures |r| == 0 || r[|r| - 1] != '/'
    ensures forall i :: |r| <= i < |s| ==> s[i] == '/'
  {
    RStripBy(s, c => c == '/')
  }

  /** `s.strip()`: leading and trailing whitespace removed. */
  function Strip(s: string): (r: string)
    ensures |r| == 0 || (!IsSpace(r[0]) && !IsSpace(r[|r| - 1]))
    ensures (forall i :: 0 <= i < |s| ==> !IsSpace(s[i])) ==> r == s
  {
    var right := RStripBy(s, IsSpace);
    var r := LStripBy(right, IsSpace);
    assert |r| > 0 ==> r[|r| - 1] == right[|right| - 1];
    r
  }

  /** Length of the run of non-whitespace characters that starts `s`. */
  function TokenLength(s: string): (n: nat)
    requires |s| > 0 && !IsSpace(s[0])
    ensures 1 <= n <= |s|
    ensures forall j :: 0 <= j < n ==> !IsSpace(s[j])
    ensures n == |s| || IsSpace(s[n])
    decreases |s|
  {
    if |s| == 1 || IsSpace(s[1]) then 1 else 1 + TokenLength(s[1..])
  }

  /** `s.split()`: the maximal runs of non-whitespace characters, in order. */
  function Words(s: string): (ws: seq<string>)
    ensures forall i :: 0 <= i < |ws| ==> |ws[i]| > 0
    ensures forall i, j :: 0 <= i < |ws| && 0 <= j < |ws[i]| ==> !IsSpace(ws[i][j])
    decreases |s|
  {
    if |s| == 0 then []
    else if IsSpace(s[0]) then Words(s[1..])
    else
      var n := TokenLength(s);
      [s[..n]] + Words(s[n..])
  }

  /** Number of positions where a word starts: a non-space character that is first or
      follows whitespace (`afterSpace` says whether the text before `s` ended in whitespace). */
  function WordStarts(s: string, afterSpace: bool): nat
    decreases |s|
  {
    if |s| == 0 then 0
    else (if afterSpace && !IsSpace(s[0]) then 1 else 0) + WordStarts(s[1..], IsSpace(s[0]))
  }

  lemma {:induction false} WordStartsInsideToken(s: string, i: nat, n: nat)
    requires 1 <= i <= n <= |s|
    requires forall j :: 0 <= j < n ==> !IsSpace(s[j])
    requires n == |s| || IsSpace(s[n])
    ensures WordStarts(s[i..], false) == WordStarts(s[n..], true)
    decreases n - i
  {
    if i < n {
      assert s[i..][1..] == s[i + 1..];
      WordStartsInsideToken(s, i + 1, n);
    } else if n < |s| {
      assert s[n..][1..] == s[n + 1..];
    }
  }

  /** A maximal run of non-space characters at `i` holds exactly one word start. */
  lemma {:induction false} WordStartsRun(s: string, i: nat, n: nat)
    requires i < n <= |s|
    requires forall j :: i <= j < n ==> !IsSpace(s[j])
    requires n == |s| || IsSpace(s[n])
    ensures WordStarts(s[i..], true) == 1 + WordStarts(s[n..], true)
  {
    var t := s[i..];
    assert t[1..] == s[i + 1..];
    assert forall j :: 0 <= j < n - i ==> t[j] == s[i + j];
    WordStartsInsideToken(t, 1, n - i);
    assert t[n - i..] == s[n..];
  }

  /** A space starts no word. */
  lemma WordStartsSpace(s: string, i: nat)
    requires i < |s| && IsSpace(s[i])
    ensures WordStarts(s[i..], true) == WordStarts(s[i + 1..], true)
  {
    assert s[i..][1..] == s[i + 1..];
  }

  /** The whitespace of `s` is exactly at the positions in `sp`. */
  predicate SpacesAt(s: string, sp: set<int>) {
    forall i :: 0 <= i < |s| ==> (IsSpace(s[i]) <==> i in sp)
  }

  /** The number of words `split()` finds is the number of word starts. */
  lemma {:induction false} WordsCountStarts(s: string)
    ensures |Words(s)| == WordStarts(s, true)
    decreases |s|
  {
    if |s| > 0 {
      if IsSpace(s[0]) {
        WordsCountStarts(s[1..]);
      } else {
        var n := TokenLength(s);
        WordsCountStarts(s[n..]);
        WordStartsInsideToken(s, 1, n);
      }
    }
  }

  /** A word followed by whitespace or nothing is the first word `split()` finds. */
  lemma WordsOfToken(w: string, r: string)
    requires |w| > 0 && forall j :: 0 <= j < |w| ==> !IsSpace(w[j])
    requires |r| == 0 || IsSpace(r[0])
    ensures Words(w + r) == [w] + Words(r)
  {
    var s := w + r;
    assert forall j :: 0 <= j < |w| ==> s[j] == w[j];
    assert |r| > 0 ==> s[|w|] == r[0];
    var n := TokenLength(s);
    assert n == |w|;
    assert s[..n] == w && s[n..] == r;
  }

  /** `" ".join(ws).split() == ws` when every word is non-empty and free of whitespace. */
  lemma {:induction false} WordsOfJoin(ws: seq<string>)
    requires forall i :: 0 <= i < |ws| ==> |ws[i]| > 0
    requires forall i, j :: 0 <= i < |ws| && 0 <= j < |ws[i]| ==> !IsSpace(ws[i][j])
    ensures Words(Join(ws, " ")) == ws
    decreases |ws|
  {
    if |ws| == 1 {
      WordsOfToken(ws[0], "");
      assert ws[0] + "" == ws[0];
    } else if |ws| > 1 {
      var rest := Join(ws[1..], " ");
      assert Join(ws, " ") == ws[0] + (" " + rest);
      WordsOfToken(ws[0], " " + rest);
      assert (" " + rest)[1..] == rest;
      WordsOfJoin(ws[1..]);
      assert ws == [ws[0]] + ws[1..];
    }
  }

  function DigitChar(d: nat): char
    requires d < 10
  {
    ('0' as int + d) as char
  }

  /** `str(n)` for a natural number: its decimal digits, most significant first. */
  function NatToString(n: nat): (s: string)
    ensures |s| >= 1
    ensures forall i :: 0 <= i < |s| ==> IsDigit(s[i])
  {
    if n < 10 then [DigitChar(n)] else NatToString(n / 10) + [DigitChar(n % 10)]
  }

  /** Value of a string of decimal digits. */
  function DecimalValue(s: string): nat
    requires forall i :: 0 <= i < |s| ==> IsDigit(s[i])
  {
    if |s| == 0 then 0
    else
      assert IsDigit(s[|s| - 1]);
      10 * DecimalValue(s[..|s| - 1]) + (s[|s| - 1] as int - '0' as int)
  }

  /** `str(n)` is read back as `n`. */
  lemma {:induction false} DecimalRoundTrip(n: nat)
    ensures DecimalValue(NatToString(n)) == n
  {
    if n >= 10 {
      var s := NatToString(n);
      assert s[..|s| - 1] == NatToString(n / 10);
      DecimalRoundTrip(n / 10);
    }
  }
}

=== FILE: ucp_client.dfy ===
/** `UCPClient`: discovery with a per-client profile cache, capability negotiation, and the
    checkout / update / complete / order calls.

    The client is a value: its profile cache and the log of every request it has handed to
    the transport. The transport is an oracle `net`: the reply to the k-th request ever sent
    is `net(k, request)`, so every merchant behaviour, failures included, is some `net`.
    Each operation returns the next client value with its outcome, and "no request is
    issued" means the log is unchanged. */
module UcpClient {
  import opened Wrappers
  import opened Json
  import opened Text
  import opened UcpTypes
  import opened UcpWire

  datatype Method = GET | POST | PATCH

  datatype Request = Request(verb: Method, url: string, body: Option<Json>)

  datatype Response = Response(status: nat, body: Body)

  /** A response, or an `httpx.RequestError` (connection refused, timeout, DNS). */
  datatype Reply = Received(response: Response) | TransportError(reason: string)

  type Network = (nat, Request) -> Reply

  datatype Client = Client(agentProfileUrl: string, cache: map<string, MerchantProfile>, sent: seq<Request>)

  /** The client after an operation, and what the operation returned or raised. */
  datatype Step<T> = Step(client: Client, result: Result<T, Failure>)

  function NewClient(agentProfileUrl: string): Client {
    Client(agentProfileUrl, map[], [])
  }

  /** `response.raise_for_status()` passes exactly the 2xx codes. */
  predicate IsSuccess(status: nat) {
    200 <= status < 300
  }

  /** Cached profiles are never evicted or replaced. */
  ghost predicate CacheExtends(c: Client, c': Client) {
    && c.cache.Keys <= c'.cache.Keys
    && (forall k :: k in c.cache ==> c'.cache[k] == c.cache[k])
    && c'.agentProfileUrl == c.agentProfileUrl
  }

  // ----- URLs -----

  /** `f"{base.rstrip('/')}{suffix}"`: the base with every trailing slash removed, then the
      suffix. */
  function Endpoint(base: string, suffix: string): (url: string)
    ensures |url| >= |suffix| && url[|url| - |suffix|..] == suffix
    ensures var stem := url[..|url| - |suffix|];
            && stem <= base
            && (|stem| == 0 || stem[|stem| - 1] != '/')
            && forall i :: |stem| <= i < |base| ==> base[i] == '/'
  {
    var stem := RStripSlash(base);
    assert (stem + suffix)[..|stem|] == stem;
    stem + suffix
  }

  /** A trailing slash on the base does not change any endpoint. */
  lemma {:induction false} EndpointIgnoresTrailingSlash(base: string, suffix: string)
    ensures Endpoint(base + "/", suffix) == Endpoint(base, suffix)
  {
    assert (base + "/")[..|base|] == base;
  }

  function WellKnownUrl(merchantUrl: string): string {
    Endpoint(merchantUrl, "/.well-known/ucp")
  }

  function CheckoutUrl(restEndpoint: string): string {
    Endpoint(restEndpoint, "/checkout")
  }

  function SessionUrl(restEndpoint: string, sessionId: string): string {
    Endpoint(restEndpoint, "/checkout/" + sessionId)
  }

  function CompleteUrl(restEndpoint: string, sessionId: string): string {
    Endpoint(restEndpoint, "/checkout/" + sessionId + "/complete")
  }

  function OrderUrl(restEndpoint: string, orderId: string): string {
    Endpoint(restEndpoint, "/orders/" + orderId)
  }

  // ----- discovery -----

  function DiscoveryRequest(merchantUrl: string): Request {
    Request(GET, WellKnownUrl(merchantUrl), None)
  }

  /** `discover`: the cached profile when `merchantUrl` is a key of the cache, otherwise one
      GET of the well-known document; only a decoded profile is cached, under the exact
      string the caller passed. */
  function Discover(c: Client, net: Network, merchantUrl: string): (r: Step<MerchantProfile>)
    ensures merchantUrl in c.cache ==> r == Step(c, Ok(c.cache[merchantUrl]))
    ensures merchantUrl !in c.cache ==> r.client.sent == c.sent + [DiscoveryRequest(merchantUrl)]
    ensures r.client.cache == if r.result.Ok? then c.cache[merchantUrl := r.result.value] else c.cache
    ensures r.client.agentProfileUrl == c.agentProfileUrl
    ensures CacheExtends(c, r.client) && c.sent <= r.client.sent
    ensures merchantUrl !in c.cache ==>
              var reply := net(|c.sent|, DiscoveryRequest(merchantUrl));
              && (reply.TransportError? ==>
                    r.result == Err(Raised(ProtocolError("network_error",
                                                         "Network error during discovery: " + reply.reason,
                                                         EmptyObj))))
              && (reply.Received? && !IsSuccess(reply.response.status) ==>
                    r.result == Err(Raised(ProtocolError("discovery_failed",
                                                         "Failed to discover merchant: "
                                                         + NatToString(reply.response.status),
                                                         EmptyObj))))
              && (reply.Received? && IsSuccess(reply.response.status) ==>
                    var decoded := DecodeProfile(reply.response.body, merchantUrl);
                    && (decoded.Some? ==> r.result == Ok(decoded.value))
                    && (decoded.None? ==> r.result == Err(Crash)))
  {
    if merchantUrl in c.cache then Step(c, Ok(c.cache[merchantUrl]))
    else
      var req := DiscoveryRequest(merchantUrl);
      var c1 := c.(sent := c.sent + [req]);
      match net(|c.sent|, req)
      case TransportError(reason) =>
        Step(c1, Err(Raised(NewError("network_error", "Network error during discovery: " + reason, JNull))))
      case Received(resp) =>
        if !IsSuccess(resp.status) then
          Step(c1, Err(Raised(NewError("discovery_failed",
                                       "Failed to discover merchant: " + NatToString(resp.status), JNull))))
        else
          match DecodeProfile(resp.body, merchantUrl)
          case None => Step(c1, Err(Crash))
          case Some(p) => Step(c1.(cache := c1.cache[merchantUrl := p]), Ok(p))
  }

  /** A second discovery of a URL the first one resolved issues no request and returns the
      same profile, whatever the network does in between. */
  lemma DiscoverIsCached(c: Client, net: Network, later: Network, merchantUrl: string)
    requires Discover(c, net, merchantUrl).result.Ok?
    ensures var first := Discover(c, net, merchantUrl);
            Discover(first.client, later, merchantUrl) == first
  {
  }

  /** The cache key is the exact string: after discovering `u`, discovering `u + "/"` still
      sends a request, to the same well-known URL. */
  lemma SlashVariantIsSeparateKey(c: Client, net: Network, later: Network, u: string)
    requires u + "/" !in c.cache
    ensures var first := Discover(c, net, u);
            var second := Discover(first.client, later, u + "/");
            && |second.client.sent| == |first.client.sent| + 1
            && second.client.sent[|first.client.sent|] == DiscoveryRequest(u)
  {
    assert u != u + "/" by { assert |u| != |u + "/"|; }
    EndpointIgnoresTrailingSlash(u, "/.well-known/ucp");
  }

  // ----- negotiation -----

  const AGENT_CAPABILITIES: set<string> := {CHECKOUT_CAPABILITY}
  const AGENT_HANDLERS: set<string> := {"com.google.pay", "dev.ucp.ap2"}

  datatype Negotiation = Negotiation(capabilities: set<string>, paymentHandlers: set<string>)

  /** `any(c.name == name for c in profile.capabilities)`. */
  predicate HasCapability(p: MerchantProfile, name: string) {
    exists i :: 0 <= i < |p.capabilities| && p.capabilities[i].name == name
  }

  predicate HasHandlerType(p: MerchantProfile, kind: string) {
    exists i :: 0 <= i < |p.paymentHandlers| && p.paymentHandlers[i].kind == kind
  }

  /** `negotiate`: the agent's fixed capability and handler sets intersected with the
      merchant's capability names and handler types. */
  function Negotiate(p: MerchantProfile): (r: Negotiation)
    ensures forall n :: n in r.capabilities <==> n in AGENT_CAPABILITIES && HasCapability(p, n)
    ensures forall t :: t in r.paymentHandlers <==> t in AGENT_HANDLERS && HasHandlerType(p, t)
    ensures r.capabilities == if HasCapability(p, CHECKOUT_CAPABILITY) then {CHECKOUT_CAPABILITY} else {}
  {
    var names := set c | c in p.capabilities :: c.name;
    var kinds := set h | h in p.paymentHandlers :: h.kind;
    assert forall n :: n in names <==> HasCapability(p, n) by {
      forall n | HasCapability(p, n) ensures n in names {
        var i :| 0 <= i < |p.capabilities| && p.capabilities[i].name == n;
        assert p.capabilities[i] in p.capabilities;
      }
    }
    assert forall t :: t in kinds <==> HasHandlerType(p, t) by {
      forall t | HasHandlerType(p, t) ensures t in kinds {
        var i :| 0 <= i < |p.paymentHandlers| && p.paymentHandlers[i].kind == t;
        assert p.paymentHandlers[i] in p.paymentHandlers;
      }
    }
    Negotiation(AGENT_CAPABILITIES * names, AGENT_HANDLERS * kinds)
  }

  // ----- checkout, update, complete, orders -----

  /** What a call to a merchant endpoint makes of the reply: a transport failure is
      `network_error`, a non-2xx reply is whatever the error mapper raises, and a 2xx reply
      is its JSON body decoded; a body that is not JSON or does not decode is a crash. */
  predicate Yields<T(==)>(reply: Reply, decode: Json -> Option<T>, result: Result<T, Failure>) {
    match reply
    case TransportError(reason) =>
      result.Err? && result.error == Raised(ProtocolError("network_error", "Network error: " + reason, EmptyObj))
    case Received(resp) =>
      if !IsSuccess(resp.status) then result.Err? && result.error == MapErrorResponse(resp.status, resp.body)
      else
        && (result.Ok? <==> resp.body.json.Some? && decode(resp.body.json.value).Some?)
        && (result.Ok? ==> result.value == decode(resp.body.json.value).value)
        && (result.Err? ==> result.error == Crash)
  }

  /** One call to a merchant endpoint: the request is sent, and the result is what the
      reply to it yields. */
  function Exchange<T(==)>(c: Client, net: Network, req: Request, decode: Json -> Option<T>): (r: Step<T>)
    ensures r.client == c.(sent := c.sent + [req])
    ensures Yields(net(|c.sent|, req), decode, r.result)
  {
    var c1 := c.(sent := c.sent + [req]);
    match net(|c.sent|, req)
    case TransportError(reason) =>
      Step(c1, Err(Raised(NewError("network_error", "Network error: " + reason, JNull))))
    case Received(resp) =>
      if !IsSuccess(resp.status) then Step(c1, Err(MapErrorResponse(resp.status, resp.body)))
      else
        match resp.body.json
        case None => Step(c1, Err(Crash))
        case Some(data) =>
          match decode(data)
          case None => Step(c1, Err(Crash))
          case Some(v) => Step(c1, Ok(v))
  }

  /** The `{"line_items": line_items, **kwargs}` payload of `create_checkout`. */
  function CheckoutPayload(lineItems: seq<Json>, options: map<string, Json>): (b: map<string, Json>)
    ensures b.Keys == options.Keys + {"line_items"}
    ensures forall k :: k in options ==> b[k] == options[k]
    ensures "line_items" !in options ==> b["line_items"] == JArr(lineItems)
  {
    map["line_items" := JArr(lineItems)] + options
  }

  /** `create_checkout`: discover, refuse a merchant without the checkout capability before
      anything is posted, then POST the line items and decode the session. `options` are
      the extra keyword arguments; `merchant_url` is a parameter of its own and so never one
      of them. `now` is the time text that stands in for missing timestamps. */
  function CreateCheckout(c: Client, net: Network, merchantUrl: string, lineItems: seq<Json>,
                          options: map<string, Json>, now: string): (r: Step<CheckoutSession>)
    requires "merchant_url" !in options
    ensures CacheExtends(c, r.client) && c.sent <= r.client.sent
    ensures var d := Discover(c, net, merchantUrl);
            && (d.result.Err? ==> r == Step(d.client, Err(d.result.error)))
            && (d.result.Ok? && !HasCapability(d.result.value, CHECKOUT_CAPABILITY) ==>
                  r == Step(d.client, Err(Raised(CapabilityError(CHECKOUT_CAPABILITY)))))
            && (d.result.Ok? && HasCapability(d.result.value, CHECKOUT_CAPABILITY) ==>
                  var req := Request(POST, CheckoutUrl(d.result.value.restEndpoint),
                                     Some(JObj(CheckoutPayload(lineItems, options))));
                  && r.client.cache == d.client.cache
                  && r.client.sent == d.client.sent + [req]
                  && Yields(net(|d.client.sent|, req),
                            (j: Json) => DecodeSession(j, merchantUrl, d.result.value.paymentHandlers, now),
                            r.result))
    ensures r.result.Ok? ==>
              && r.result.value.merchantUrl == merchantUrl
              && r.result.value.paymentHandlers == Discover(c, net, merchantUrl).result.value.paymentHandlers
  {
    var d := Discover(c, net, merchantUrl);
    if d.result.Err? then Step(d.client, Err(d.result.error))
    else
      var m := d.result.value;
      if !HasCapability(m, CHECKOUT_CAPABILITY) then
        Step(d.client, Err(Raised(CapabilityError(CHECKOUT_CAPABILITY))))
      else
        var req := Request(POST, CheckoutUrl(m.restEndpoint), Some(JObj(CheckoutPayload(lineItems, options))));
        SessionExchange(d.client, net, req, merchantUrl, m.paymentHandlers, now)
  }

  /** One exchange whose reply is read as a checkout session of `merchantUrl`. */
  function SessionExchange(c: Client, net: Network, req: Request, merchantUrl: string,
                           handlers: seq<PaymentHandler>, now: string): (r: Step<CheckoutSession>)
    ensures r.client == c.(sent := c.sent + [req])
    ensures Yields(net(|c.sent|, req), (j: Json) => DecodeSession(j, merchantUrl, handlers, now), r.result)
    ensures r.result.Ok? ==> r.result.value.merchantUrl == merchantUrl && r.result.value.paymentHandlers == handlers
  {
    Exchange(c, net, req, (j: Json) => DecodeSession(j, merchantUrl, handlers, now))
  }

  /** The POST body of `create_checkout` carries the line items and never a merchant URL. */
  lemma CheckoutPayloadContents(lineItems: seq<Json>, options: map<string, Json>)
    requires "merchant_url" !in options && "line_items" !in options
    ensures var b := CheckoutPayload(lineItems, options);
            && b["line_items"] == JArr(lineItems)
            && "merchant_url" !in b
            && b.Keys == options.Keys + {"line_items"}
  {
  }

  /** With the profile already cached, a merchant lacking the checkout capability is refused
      without any request at all. */
  lemma CheckoutGateSendsNothing(c: Client, net: Network, merchantUrl: string, lineItems: seq<Json>,
                                 options: map<string, Json>, now: string)
    requires "merchant_url" !in options
    requires merchantUrl in c.cache && !HasCapability(c.cache[merchantUrl], CHECKOUT_CAPABILITY)
    ensures CreateCheckout(c, net, merchantUrl, lineItems, options, now)
            == Step(c, Err(Raised(CapabilityError(CHECKOUT_CAPABILITY))))
  {
  }

  /** The capability gate of `create_checkout` passes exactly when negotiation keeps checkout. */
  lemma GateMatchesNegotiation(p: MerchantProfile)
    ensures HasCapability(p, CHECKOUT_CAPABILITY) <==> CHECKOUT_CAPABILITY in Negotiate(p).capabilities
  {
  }

  /** `merchant_url = kwargs.pop("merchant_url", None); if not merchant_url: ...`. */
  predicate MerchantUrlGiven(kwargs: map<string, Json>) {
    "merchant_url" in kwargs && Truthy(kwargs["merchant_url"])
  }

  /** Which `merchant_url` arguments pass the `if not merchant_url` test: a missing one,
      `None` and the empty string do not, any non-empty string does. */
  lemma MerchantUrlTruthiness(kwargs: map<string, Json>, url: string)
    ensures !MerchantUrlGiven(kwargs - {"merchant_url"})
    ensures !MerchantUrlGiven(kwargs["merchant_url" := JNull])
    ensures !MerchantUrlGiven(kwargs["merchant_url" := JStr("")])
    ensures |url| > 0 ==> MerchantUrlGiven(kwargs["merchant_url" := JStr(url)])
  {
  }

  /** A request whose body, if any, is an object without a `merchant_url` entry. */
  predicate MerchantUrlFree(req: Request) {
    req.body.None? || (req.body.value.JObj? && "merchant_url" !in req.body.value.fields)
  }

  /** The part of an update or completion that runs once `merchant_url` is known: discover,
      then one call to the endpoint built from the profile. */
  function DiscoverThen<T(==)>(c: Client, net: Network, merchantUrl: string, verb: Method,
                           suffix: string, body: map<string, Json>,
                           decode: seq<PaymentHandler> -> Json -> Option<T>): (r: Step<T>)
    requires "merchant_url" !in body
    ensures CacheExtends(c, r.client) && c.sent <= r.client.sent
    ensures forall i :: |c.sent| <= i < |r.client.sent| ==> MerchantUrlFree(r.client.sent[i])
    ensures var d := Discover(c, net, merchantUrl);
            && (d.result.Err? ==> r == Step(d.client, Err(d.result.error)))
            && (d.result.Ok? ==>
                  var req := Request(verb, Endpoint(d.result.value.restEndpoint, suffix), Some(JObj(body)));
                  && r.client.cache == d.client.cache
                  && r.client.sent == d.client.sent + [req]
                  && Yields(net(|d.client.sent|, req), decode(d.result.value.paymentHandlers), r.result))
  {
    var d := Discover(c, net, merchantUrl);
    if d.result.Err? then Step(d.client, Err(d.result.error))
    else
      var m := d.result.value;
      Exchange(d.client, net, Request(verb, Endpoint(m.restEndpoint, suffix), Some(JObj(body))),
               decode(m.paymentHandlers))
  }

  /** `update_checkout`: `kwargs` holds the caller's keyword arguments. Without a truthy
      `merchant_url` it fails locally; otherwise it PATCHes the remaining arguments. */
  function UpdateCheckout(c: Client, net: Network, sessionId: string, kwargs: map<string, Json>,
                          now: string): (r: Step<CheckoutSession>)
    ensures !MerchantUrlGiven(kwargs) ==>
              r == Step(c, Err(Raised(ProtocolError("invalid_request", "merchant_url required for update", EmptyObj))))
    ensures MerchantUrlGiven(kwargs) && !kwargs["merchant_url"].JStr? ==> r == Step(c, Err(Crash))
    ensures CacheExtends(c, r.client) && c.sent <= r.client.sent
    ensures forall i :: |c.sent| <= i < |r.client.sent| ==> MerchantUrlFree(r.client.sent[i])
    ensures MerchantUrlGiven(kwargs) && kwargs["merchant_url"].JStr? ==>
              var url := kwargs["merchant_url"].s;
              var d := Discover(c, net, url);
              && (d.result.Err? ==> r == Step(d.client, Err(d.result.error)))
              && (d.result.Ok? ==>
                    var req := Request(PATCH, SessionUrl(d.result.value.restEndpoint, sessionId),
                                       Some(JObj(kwargs - {"merchant_url"})));
                    && r.client.cache == d.client.cache
                    && r.client.sent == d.client.sent + [req]
                    && Yields(net(|d.client.sent|, req),
                              (j: Json) => DecodeSession(j, url, d.result.value.paymentHandlers, now),
                              r.result))
    ensures r.result.Ok? ==> JStr(r.result.value.merchantUrl) == kwargs["merchant_url"]
  {
    if !MerchantUrlGiven(kwargs) then
      Step(c, Err(Raised(NewError("invalid_request", "merchant_url required for update", JNull))))
    else if !kwargs["merchant_url"].JStr? then
      Step(c, Err(Crash))
    else
      var url := kwargs["merchant_url"].s;
      DiscoverThen(c, net, url, PATCH, "/checkout/" + sessionId, kwargs - {"merchant_url"},
                   (hs: seq<PaymentHandler>) => (j: Json) => DecodeSession(j, url, hs, now))
  }

  /** The `{"payment": payment_data, **kwargs}` payload of `complete_checkout`. */
  function CompletionPayload(paymentData: Json, kwargs: map<string, Json>): (b: map<string, Json>)
    ensures b.Keys == (kwargs.Keys - {"merchant_url"}) + {"payment"}
    ensures forall k :: k in kwargs && k != "merchant_url" ==> b[k] == kwargs[k]
    ensures "payment" !in kwargs ==> b["payment"] == paymentData
  {
    map["payment" := paymentData] + (kwargs - {"merchant_url"})
  }

  /** `complete_checkout`: like an update, but POSTs the payment to the session's `complete`
      endpoint and decodes an order. */
  function CompleteCheckout(c: Client, net: Network, sessionId: string, paymentData: Json,
                            kwargs: map<string, Json>): (r: Step<Order>)
    ensures !MerchantUrlGiven(kwargs) ==>
              r == Step(c, Err(Raised(ProtocolError("invalid_request", "merchant_url required for completion", EmptyObj))))
    ensures MerchantUrlGiven(kwargs) && !kwargs["merchant_url"].JStr? ==> r == Step(c, Err(Crash))
    ensures CacheExtends(c, r.client) && c.sent <= r.client.sent
    ensures forall i :: |c.sent| <= i < |r.client.sent| ==> MerchantUrlFree(r.client.sent[i])
    ensures MerchantUrlGiven(kwargs) && kwargs["merchant_url"].JStr? ==>
              var d := Discover(c, net, kwargs["merchant_url"].s);
              && (d.result.Err? ==> r == Step(d.client, Err(d.result.error)))
              && (d.result.Ok? ==>
                    var req := Request(POST, CompleteUrl(d.result.value.restEndpoint, sessionId),
                                       Some(JObj(CompletionPayload(paymentData, kwargs))));
                    && r.client.cache == d.client.cache
                    && r.client.sent == d.client.sent + [req]
                    && Yields(net(|d.client.sent|, req), DecodeOrder, r.result))
  {
    if !MerchantUrlGiven(kwargs) then
      Step(c, Err(Raised(NewError("invalid_request", "merchant_url required for completion", JNull))))
    else if !kwargs["merchant_url"].JStr? then
      Step(c, Err(Crash))
    else
      var url := kwargs["merchant_url"].s;
      assert "/checkout/" + sessionId + "/complete" == "/checkout/" + sessionId + "/complete";
      DiscoverThen(c, net, url, POST, "/checkout/" + sessionId + "/complete",
                   CompletionPayload(paymentData, kwargs),
                   (hs: seq<PaymentHandler>) => DecodeOrder)
  }

  /** The completion payload carries the payment data unless an extra argument overrides it. */
  lemma CompletionPayloadContents(paymentData: Json, kwargs: map<string, Json>)
    requires "payment" !in kwargs
    ensures var b := CompletionPayload(paymentData, kwargs);
            && b["payment"] == paymentData
            && "merchant_url" !in b
            && b.Keys == (kwargs.Keys - {"merchant_url"}) + {"payment"}
  {
  }

  /** `get_order`: discover, then GET the order and decode it. */
  function GetOrder(c: Client, net: Network, orderId: string, merchantUrl: string): (r: Step<Order>)
    ensures CacheExtends(c, r.client) && c.sent <= r.client.sent
    ensures var d := Discover(c, net, merchantUrl);
            && (d.result.Err? ==> r == Step(d.client, Err(d.result.error)))
            && (d.result.Ok? ==>
                  var req := Request(GET, OrderUrl(d.result.value.restEndpoint, orderId), None);
                  && r.client.cache == d.client.cache
                  && r.client.sent == d.client.sent + [req]
                  && Yields(net(|d.client.sent|, req), DecodeOrder, r.result))
  {
    var d := Discover(c, net, merchantUrl);
    if d.result.Err? then Step(d.client, Err(d.result.error))
    else
      Exchange(d.client, net, Request(GET, OrderUrl(d.result.value.restEndpoint, orderId), None), DecodeOrder)
  }
}

=== FILE: ucp_types.dfy ===
/** The UCP client's records (capabilities, payment handlers, merchant profiles, line items,
    checkout sessions, orders) and its error classes. */
module UcpTypes {
  import opened Wrappers
  import opened Json

  /** The protocol version this agent speaks (`UCPClient.UCP_VERSION`). */
  const UCP_VERSION: string := "2026-01-11"

  /** The capability `create_checkout` insists on. */
  const CHECKOUT_CAPABILITY: string := "dev.ucp.shopping.checkout"

  datatype Capability = Capability(name: string, version: string)

  /** `type` is a Dafny keyword, so the handler's type is `kind` here. */
  datatype PaymentHandler = PaymentHandler(id: string, kind: string, config: Json)

  /** `extensions` is kept as the raw value the merchant sent: the client stores it unexamined. */
  datatype MerchantProfile = MerchantProfile(
    name: string,
    description: string,
    restEndpoint: string,
    ucpVersion: string,
    capabilities: seq<Capability>,
    paymentHandlers: seq<PaymentHandler>,
    extensions: Json)

  datatype LineItem = LineItem(
    sku: string,
    quantity: int,
    priceCents: Option<int>,
    name: Option<string>,
    description: Option<string>)

  /** `createdAt`/`expiresAt` are the ISO-8601 texts the timestamps are parsed from. */
  datatype CheckoutSession = CheckoutSession(
    id: string,
    status: string,
    merchantUrl: string,
    lineItems: seq<LineItem>,
    subtotalCents: int,
    taxCents: int,
    shippingCents: int,
    discountCents: int,
    totalCents: int,
    currency: string,
    paymentHandlers: seq<PaymentHandler>,
    createdAt: string,
    expiresAt: string,
    terms: Json)

  datatype Order = Order(
    id: string,
    status: string,
    confirmationNumber: Option<string>,
    totalCents: int,
    currency: string)

  /** `UCPError` and its two subclasses. */
  datatype UcpError =
    | ProtocolError(code: string, message: string, details: Json)
    | VersionError(agentVersion: string, requiredVersion: string)
    | CapabilityError(capability: string)
  {
    /** The `code` attribute every variant carries. */
    function Code(): string {
      match this
      case ProtocolError(c, _, _) => c
      case VersionError(_, _) => "version_mismatch"
      case CapabilityError(_) => "capability_not_supported"
    }

    function Message(): string {
      match this
      case ProtocolError(_, m, _) => m
      case VersionError(a, r) => "Version mismatch: agent=" + a + ", required=" + r
      case CapabilityError(c) => "Capability not supported: " + c
    }

    function Details(): Json {
      match this
      case ProtocolError(_, _, d) => d
      case VersionError(a, r) =>
        JObj(map["agent_version" := JStr(a), "required_version" := JStr(r)])
      case CapabilityError(c) => JObj(map["capability" := JStr(c)])
    }
  }

  /** `UCPError(code, message, details)`: falsy details (`None`, `{}`, ...) become `{}`. */
  function NewError(code: string, message: string, details: Json): (e: UcpError)
    ensures e.ProtocolError? && e.Code() == code && e.Message() == message
    ensures Truthy(details) ==> e.Details() == details
    ensures !Truthy(details) ==> e.Details() == EmptyObj
  {
    ProtocolError(code, message, if Truthy(details) then details else EmptyObj)
  }

  /** How an operation fails: a raised `UCPError`, or any other Python exception
      (`KeyError`, `AttributeError`, `TypeError`, a JSON decode error) that the client does
      not catch because a response lacked a required field or had the wrong shape. */
  datatype Failure = Raised(error: UcpError) | Crash
}

=== FILE: ucp_wire.dfy ===
/** How the UCP client reads merchant responses: the discovery document, checkout sessions,
    orders, and error bodies (`_handle_error_response`). Every absent field takes the
    client's default; a field of the wrong type is a `Crash`, reported here as `None`.
    The `Encode*` functions write the documents a merchant sends, so that decoding can be
    checked against them. */
module UcpWire {
  import opened Wrappers
  import opened Json
  import opened Text
  import opened UcpTypes

  /** A response body: its raw text, and the value `response.json()` returns (None when the
      text is not JSON). */
  datatype Body = Body(text: string, json: Option<Json>)

  /** The object stored under `key` in `top`, or `{}` when it is missing or not an object. */
  function Section(top: map<string, Json>, key: string): map<string, Json> {
    if key in top && top[key].JObj? then top[key].fields else map[]
  }

  /** A list written element by element with `enc`. */
  function EncodeEach<A>(xs: seq<A>, enc: A -> Json): (r: seq<Json>)
    ensures |r| == |xs|
    ensures forall i :: 0 <= i < |xs| ==> r[i] == enc(xs[i])
  {
    seq(|xs|, i requires 0 <= i < |xs| => enc(xs[i]))
  }

  /** A decoder that inverts `enc` on every element reads the whole encoded list back. */
  lemma MapAllInverts<A>(xs: seq<A>, enc: A -> Json, dec: Json -> Option<A>)
    requires forall i :: 0 <= i < |xs| ==> dec(enc(xs[i])) == Some(xs[i])
    ensures MapAll(EncodeEach(xs, enc), dec) == Some(xs)
  {
    var r := MapAll(EncodeEach(xs, enc), dec);
    assert r.Some?;
    assert r.value == xs;
  }

  // ----- discovery document -----

  /** `Capability(name=c["name"], version=c.get("version", ""))`. */
  function DecodeCapability(j: Json): (r: Option<Capability>)
    ensures r.Some? ==> j.JObj? && "name" in j.fields && j.fields["name"] == JStr(r.value.name)
    ensures r.Some? && "version" !in j.fields ==> r.value.version == ""
    ensures r.Some? && "version" in j.fields ==> j.fields["version"] == JStr(r.value.version)
    ensures j.JObj? && "name" !in j.fields ==> r.None?
  {
    var d :- AsObject(j);
    if "name" !in d then None
    else
      var name :- GetString(d, "name", "");
      var version :- GetString(d, "version", "");
      Some(Capability(name, version))
  }

  /** `PaymentHandler(id=h.get("id", ""), type=h.get("type", ""), config=h.get("config", {}))`. */
  function DecodeHandler(j: Json): (r: Option<PaymentHandler>)
    ensures r.Some? ==> j.JObj?
    ensures r.Some? && "id" !in j.fields ==> r.value.id == ""
    ensures r.Some? && "type" !in j.fields ==> r.value.kind == ""
    ensures r.Some? && "config" !in j.fields ==> r.value.config == EmptyObj
    ensures r.Some? && "config" in j.fields ==> r.value.config == j.fields["config"]
  {
    var d :- AsObject(j);
    var id :- GetString(d, "id", "");
    var kind :- GetString(d, "type", "");
    Some(PaymentHandler(id, kind, Get(d, "config", EmptyObj)))
  }

  /** The profile `discover` builds from a successful well-known response. */
  function DecodeProfile(body: Body, merchantUrl: string): (r: Option<MerchantProfile>)
    ensures r.Some? ==> body.json.Some? && body.json.value.JObj?
    ensures r.Some? ==>
              var top := body.json.value.fields;
              && ("merchant" in top ==> top["merchant"].JObj?)
              && ("ucp" in top ==> top["ucp"].JObj?)
    ensures r.Some? ==>
              var m := Section(body.json.value.fields, "merchant");
              && ("name" !in m ==> r.value.name == "Unknown")
              && ("name" in m ==> m["name"] == JStr(r.value.name))
              && ("description" !in m ==> r.value.description == "")
              && ("rest_endpoint" !in m ==> r.value.restEndpoint == merchantUrl)
              && ("rest_endpoint" in m ==> m["rest_endpoint"] == JStr(r.value.restEndpoint))
    ensures r.Some? ==>
              var u := Section(body.json.value.fields, "ucp");
              && ("version" !in u ==> r.value.ucpVersion == "")
              && ("capabilities" !in u ==> r.value.capabilities == [])
              && ("payment_handlers" !in u ==> r.value.paymentHandlers == [])
              && ("extensions" !in u ==> r.value.extensions == JArr([]))
    ensures r.Some? ==>
              var u := Section(body.json.value.fields, "ucp");
              && ("capabilities" in u && u["capabilities"].JArr? ==>
                    var cs := u["capabilities"].elems;
                    |r.value.capabilities| == |cs|
                    && forall i :: 0 <= i < |cs| ==> DecodeCapability(cs[i]) == Some(r.value.capabilities[i]))
              && ("payment_handlers" in u && u["payment_handlers"].JArr? ==>
                    var hs := u["payment_handlers"].elems;
                    |r.value.paymentHandlers| == |hs|
                    && forall i :: 0 <= i < |hs| ==> DecodeHandler(hs[i]) == Some(r.value.paymentHandlers[i]))
  {
    var data :- body.json;
    var top :- AsObject(data);
    var ucp :- GetObject(top, "ucp");
    var merchant :- GetObject(top, "merchant");
    var name :- GetString(merchant, "name", "Unknown");
    var description :- GetString(merchant, "description", "");
    var endpoint :- GetString(merchant, "rest_endpoint", merchantUrl);
    var version :- GetString(ucp, "version", "");
    var capItems :- GetElements(ucp, "capabilities");
    var caps :- MapAll(capItems, DecodeCapability);
    var handlerItems :- GetElements(ucp, "payment_handlers");
    var handlers :- MapAll(handlerItems, DecodeHandler);
    Some(MerchantProfile(name, description, endpoint, version, caps, handlers,
                         Get(ucp, "extensions", JArr([]))))
  }

  function EncodeCapability(c: Capability): Json {
    JObj(map["name" := JStr(c.name), "version" := JStr(c.version)])
  }

  function EncodeHandler(h: PaymentHandler): Json {
    JObj(map["id" := JStr(h.id), "type" := JStr(h.kind), "config" := h.config])
  }

  /** The well-known document a merchant publishes for profile `p`. */
  function EncodeProfile(p: MerchantProfile): Json {
    JObj(map[
      "merchant" := JObj(map[
        "name" := JStr(p.name),
        "description" := JStr(p.description),
        "rest_endpoint" := JStr(p.restEndpoint)]),
      "ucp" := JObj(map[
        "version" := JStr(p.ucpVersion),
        "capabilities" := JArr(EncodeEach(p.capabilities, EncodeCapability)),
        "payment_handlers" := JArr(EncodeEach(p.paymentHandlers, EncodeHandler)),
        "extensions" := p.extensions])])
  }

  lemma CapabilityRoundTrip(c: Capability)
    ensures DecodeCapability(EncodeCapability(c)) == Some(c)
  {
  }

  lemma HandlerRoundTrip(h: PaymentHandler)
    ensures DecodeHandler(EncodeHandler(h)) == Some(h)
  {
  }

  /** Discovery reads back every profile from the document that publishes it, whatever
      merchant URL it was discovered under. */
  lemma ProfileRoundTrip(p: MerchantProfile, text: string, merchantUrl: string)
    ensures DecodeProfile(Body(text, Some(EncodeProfile(p))), merchantUrl) == Some(p)
  {
    forall i | 0 <= i < |p.capabilities| ensures DecodeCapability(EncodeCapability(p.capabilities[i])) == Some(p.capabilities[i]) {
      CapabilityRoundTrip(p.capabilities[i]);
    }
    MapAllInverts(p.capabilities, EncodeCapability, DecodeCapability);
    forall i | 0 <= i < |p.paymentHandlers| ensures DecodeHandler(EncodeHandler(p.paymentHandlers[i])) == Some(p.paymentHandlers[i]) {
      HandlerRoundTrip(p.paymentHandlers[i]);
    }
    MapAllInverts(p.paymentHandlers, EncodeHandler, DecodeHandler);
    ProfileSections(p);
  }

  /** The two sections of a published profile, entry by entry. */
  lemma ProfileSections(p: MerchantProfile)
    ensures var top := EncodeProfile(p).fields;
            && AsObject(EncodeProfile(p)) == Some(top)
            && GetObject(top, "ucp").Some? && GetObject(top, "merchant").Some?
    ensures var m := GetObject(EncodeProfile(p).fields, "merchant").value;
            && GetString(m, "name", "Unknown") == Some(p.name)
            && GetString(m, "description", "") == Some(p.description)
    ensures var m := GetObject(EncodeProfile(p).fields, "merchant").value;
            forall u :: GetString(m, "rest_endpoint", u) == Some(p.restEndpoint)
    ensures var u := GetObject(EncodeProfile(p).fields, "ucp").value;
            && GetString(u, "version", "") == Some(p.ucpVersion)
            && GetElements(u, "capabilities") == Some(EncodeEach(p.capabilities, EncodeCapability))
            && GetElements(u, "payment_handlers") == Some(EncodeEach(p.paymentHandlers, EncodeHandler))
            && Get(u, "extensions", JArr([])) == p.extensions
  {
  }

  /** An empty discovery document gives the all-defaults profile. */
  lemma EmptyProfileDefaults(text: string, merchantUrl: string)
    ensures DecodeProfile(Body(text, Some(EmptyObj)), merchantUrl)
            == Some(MerchantProfile("Unknown", "", merchantUrl, "", [], [], JArr([])))
  {
  }

  // ----- checkout sessions -----

  /** One entry of `line_items`: `sku` defaults to "", `quantity` to 0, the rest to None. */
  function DecodeLineItem(j: Json): (r: Option<LineItem>)
    ensures r.Some? ==> j.JObj?
    ensures r.Some? && "sku" !in j.fields ==> r.value.sku == ""
    ensures r.Some? && "quantity" !in j.fields ==> r.value.quantity == 0
    ensures r.Some? && "price_cents" !in j.fields ==> r.value.priceCents == None
    ensures r.Some? && "quantity" in j.fields ==> j.fields["quantity"] == JNum(r.value.quantity)
  {
    var d :- AsObject(j);
    var sku :- GetString(d, "sku", "");
    var quantity :- GetInt(d, "quantity", 0);
    var price :- GetOptInt(d, "price_cents");
    var name :- GetOptString(d, "name");
    var description :- GetOptString(d, "description");
    Some(LineItem(sku, quantity, price, name, description))
  }

  /** `_parse_checkout_session`: the session carries the caller's merchant URL and payment
      handlers, not anything from the response; `now` is the text `datetime.now()` supplies
      for a missing timestamp. */
  function DecodeSession(data: Json, merchantUrl: string, handlers: seq<PaymentHandler>, now: string)
    : (r: Option<CheckoutSession>)
    ensures r.Some? ==> data.JObj?
    ensures r.Some? ==> r.value.merchantUrl == merchantUrl && r.value.paymentHandlers == handlers
    ensures r.Some? ==>
              var d := data.fields;
              && ("id" !in d ==> r.value.id == "")
              && ("status" !in d ==> r.value.status == "incomplete")
              && ("status" in d ==> d["status"] == JStr(r.value.status))
              && ("line_items" !in d ==> r.value.lineItems == [])
              && ("subtotal_cents" !in d ==> r.value.subtotalCents == 0)
              && ("tax_cents" !in d ==> r.value.taxCents == 0)
              && ("shipping_cents" !in d ==> r.value.shippingCents == 0)
              && ("discount_cents" !in d ==> r.value.discountCents == 0)
              && ("total_cents" !in d ==> r.value.totalCents == 0)
              && ("currency" !in d ==> r.value.currency == "USD")
              && ("created_at" !in d ==> r.value.createdAt == now)
              && ("expires_at" !in d ==> r.value.expiresAt == now)
              && ("terms" !in d ==> r.value.terms == EmptyObj)
    ensures r.Some? && "line_items" in data.fields && data.fields["line_items"].JArr? ==>
              var items := data.fields["line_items"].elems;
              |r.value.lineItems| == |items|
              && forall i :: 0 <= i < |items| ==> DecodeLineItem(items[i]) == Some(r.value.lineItems[i])
  {
    var d :- AsObject(data);
    var id :- GetString(d, "id", "");
    var status :- GetString(d, "status", "incomplete");
    var itemValues :- GetElements(d, "line_items");
    var items :- MapAll(itemValues, DecodeLineItem);
    var subtotal :- GetInt(d, "subtotal_cents", 0);
    var tax :- GetInt(d, "tax_cents", 0);
    var shipping :- GetInt(d, "shipping_cents", 0);
    var discount :- GetInt(d, "discount_cents", 0);
    var total :- GetInt(d, "total_cents", 0);
    var currency :- GetString(d, "currency", "USD");
    var createdAt :- GetString(d, "created_at", now);
    var expiresAt :- GetString(d, "expires_at", now);
    Some(CheckoutSession(id, status, merchantUrl, items, subtotal, tax, shipping, discount, total,
                         currency, handlers, createdAt, expiresAt, Get(d, "terms", EmptyObj)))
  }

  function OptStr(o: Option<string>): Json {
    if o.Some? then JStr(o.value) else JNull
  }

  function OptInt(o: Option<int>): Json {
    if o.Some? then JNum(o.value) else JNull
  }

  function EncodeLineItem(li: LineItem): Json {
    JObj(map["sku" := JStr(li.sku), "quantity" := JNum(li.quantity),
             "price_cents" := OptInt(li.priceCents), "name" := OptStr(li.name),
             "description" := OptStr(li.description)])
  }

  /** The session object a merchant returns; the merchant URL and payment handlers are not
      part of it. */
  function EncodeSession(s: CheckoutSession): Json {
    JObj(map[
      "id" := JStr(s.id), "status" := JStr(s.status),
      "line_items" := JArr(EncodeEach(s.lineItems, EncodeLineItem)),
      "subtotal_cents" := JNum(s.subtotalCents), "tax_cents" := JNum(s.taxCents),
      "shipping_cents" := JNum(s.shippingCents), "discount_cents" := JNum(s.discountCents),
      "total_cents" := JNum(s.totalCents), "currency" := JStr(s.currency),
      "created_at" := JStr(s.createdAt), "expires_at" := JStr(s.expiresAt),
      "terms" := s.terms])
  }

  /** A session is read back from its own wire object once the caller re-supplies the
      merchant URL and the profile's payment handlers. */
  lemma SessionRoundTrip(s: CheckoutSession, now: string)
    ensures DecodeSession(EncodeSession(s), s.merchantUrl, s.paymentHandlers, now) == Some(s)
  {
    var d := EncodeSession(s).fields;
    EncodedLineItems(s);
    EncodedSessionEntries(s, now);
    DecodeSessionOf(d, s, now);
  }

  lemma LineItemRoundTrip(li: LineItem)
    ensures DecodeLineItem(EncodeLineItem(li)) == Some(li)
  {
  }

  lemma EncodedLineItems(s: CheckoutSession)
    ensures GetElements(EncodeSession(s).fields, "line_items").Some?
    ensures MapAll(GetElements(EncodeSession(s).fields, "line_items").value, DecodeLineItem) == Some(s.lineItems)
  {
    assert GetElements(EncodeSession(s).fields, "line_items") == Some(EncodeEach(s.lineItems, EncodeLineItem));
    forall i | 0 <= i < |s.lineItems| ensures DecodeLineItem(EncodeLineItem(s.lineItems[i])) == Some(s.lineItems[i]) {
      LineItemRoundTrip(s.lineItems[i]);
    }
    MapAllInverts(s.lineItems, EncodeLineItem, DecodeLineItem);
  }

  lemma EncodedSessionEntries(s: CheckoutSession, now: string)
    ensures var d := EncodeSession(s).fields;
            && GetString(d, "id", "") == Some(s.id)
            && GetString(d, "status", "incomplete") == Some(s.status)
            && GetInt(d, "subtotal_cents", 0) == Some(s.subtotalCents)
            && GetInt(d, "tax_cents", 0) == Some(s.taxCents)
            && GetInt(d, "shipping_cents", 0) == Some(s.shippingCents)
            && GetInt(d, "discount_cents", 0) == Some(s.discountCents)
            && GetInt(d, "total_cents", 0) == Some(s.totalCents)
            && GetString(d, "currency", "USD") == Some(s.currency)
            && GetString(d, "created_at", now) == Some(s.createdAt)
            && GetString(d, "expires_at", now) == Some(s.expiresAt)
            && Get(d, "terms", EmptyObj) == s.terms
  {
    EncodedSessionHead(s);
    EncodedSessionTail(s, now);
  }

  /** The identity and amount entries of an encoded session. */
  lemma EncodedSessionHead(s: CheckoutSession)
    ensures var d := EncodeSession(s).fields;
            && GetString(d, "id", "") == Some(s.id)
            && GetString(d, "status", "incomplete") == Some(s.status)
            && GetInt(d, "subtotal_cents", 0) == Some(s.subtotalCents)
            && GetInt(d, "tax_cents", 0) == Some(s.taxCents)
            && GetInt(d, "shipping_cents", 0) == Some(s.shippingCents)
  {
  }

  /** The remaining entries of an encoded session. */
  lemma EncodedSessionTail(s: CheckoutSession, now: string)
    ensures var d := EncodeSession(s).fields;
            && GetInt(d, "discount_cents", 0) == Some(s.discountCents)
            && GetInt(d, "total_cents", 0) == Some(s.totalCents)
            && GetString(d, "currency", "USD") == Some(s.currency)
            && GetString(d, "created_at", now) == Some(s.createdAt)
            && GetString(d, "expires_at", now) == Some(s.expiresAt)
            && Get(d, "terms", EmptyObj) == s.terms
  {
  }

  /** `DecodeSession` of an object whose entries each read as the matching field of `s`. */
  lemma DecodeSessionOf(d: map<string, Json>, s: CheckoutSession, now: string)
    requires GetString(d, "id", "") == Some(s.id)
    requires GetString(d, "status", "incomplete") == Some(s.status)
    requires GetElements(d, "line_items").Some?
    requires MapAll(GetElements(d, "line_items").value, DecodeLineItem) == Some(s.lineItems)
    requires GetInt(d, "subtotal_cents", 0) == Some(s.subtotalCents)
    requires GetInt(d, "tax_cents", 0) == Some(s.taxCents)
    requires GetInt(d, "shipping_cents", 0) == Some(s.shippingCents)
    requires GetInt(d, "discount_cents", 0) == Some(s.discountCents)
    requires GetInt(d, "total_cents", 0) == Some(s.totalCents)
    requires GetString(d, "currency", "USD") == Some(s.currency)
    requires GetString(d, "created_at", now) == Some(s.createdAt)
    requires GetString(d, "expires_at", now) == Some(s.expiresAt)
    requires Get(d, "terms", EmptyObj) == s.terms
    ensures DecodeSession(JObj(d), s.merchantUrl, s.paymentHandlers, now) == Some(s)
  {
  }

  // ----- orders -----

  /** The `Order(...)` built by `complete_checkout` and `get_order`. */
  function DecodeOrder(data: Json): (r: Option<Order>)
    ensures r.Some? ==> data.JObj?
    ensures r.Some? ==>
              var d := data.fields;
              && ("id" !in d ==> r.value.id == "")
              && ("id" in d ==> d["id"] == JStr(r.value.id))
              && ("status" !in d ==> r.value.status == "unknown")
              && ("status" in d ==> d["status"] == JStr(r.value.status))
              && ("confirmation_number" !in d ==> r.value.confirmationNumber == None)
              && ("total_cents" !in d ==> r.value.totalCents == 0)
              && ("total_cents" in d ==> d["total_cents"] == JNum(r.value.totalCents))
              && ("currency" !in d ==> r.value.currency == "USD")
              && ("currency" in d ==> d["currency"] == JStr(r.value.currency))
  {
    var d :- AsObject(data);
    var id :- GetString(d, "id", "");
    var status :- GetString(d, "status", "unknown");
    var confirmation :- GetOptString(d, "confirmation_number");
    var total :- GetInt(d, "total_cents", 0);
    var currency :- GetString(d, "currency", "USD");
    Some(Order(id, status, confirmation, total, currency))
  }

  function EncodeOrder(o: Order): Json {
    JObj(map["id" := JStr(o.id), "status" := JStr(o.status),
             "confirmation_number" := OptStr(o.confirmationNumber),
             "total_cents" := JNum(o.totalCents), "currency" := JStr(o.currency)])
  }

  lemma OrderRoundTrip(o: Order)
    ensures DecodeOrder(EncodeOrder(o)) == Some(o)
  {
  }

  /** An empty order object decodes to the all-defaults order. */
  lemma EmptyOrderDefaults()
    ensures DecodeOrder(EmptyObj) == Some(Order("", "unknown", None, 0, "USD"))
  {
  }

  // ----- error responses -----

  /** What the `try` block of `_handle_error_response` reads: nothing when it raises (the
      body is not JSON, not an object, or its `error` entry is not an object), otherwise the
      `code`, `message` and `details` entries with their defaults. */
  datatype ErrorRead = Unreadable | Fields(code: Json, message: Json, details: Json)

  function ReadError(body: Body): (r: ErrorRead)
    ensures r.Unreadable? <==> !(body.json.Some? && body.json.value.JObj?
                                 && ("error" in body.json.value.fields ==> body.json.value.fields["error"].JObj?))
    ensures r.Fields? && "error" !in body.json.value.fields ==>
              r == Fields(JStr("unknown_error"), JStr("Unknown error"), EmptyObj)
  {
    match body.json
    case Some(JObj(top)) =>
      (match GetObject(top, "error")
       case None => Unreadable
       case Some(e) =>
         Fields(Get(e, "code", JStr("unknown_error")), Get(e, "message", JStr("Unknown error")),
                Get(e, "details", EmptyObj)))
    case _ => Unreadable
  }

  /** `details.get(key, "unknown")` for a string entry; None when `details` is not an object
      (the client then raises `AttributeError`) or the entry is not a string. */
  function DetailOr(details: Json, key: string): (r: Option<string>)
    ensures details.JObj? && key !in details.fields ==> r == Some("unknown")
    ensures details.JObj? && key in details.fields && details.fields[key].JStr? ==>
              r == Some(details.fields[key].s)
    ensures !details.JObj? ==> r.None?
  {
    var d :- AsObject(details);
    GetString(d, key, "unknown")
  }

  /** `_handle_error_response`: the error a non-2xx response raises. */
  function MapErrorResponse(status: nat, body: Body): (f: Failure)
    ensures ReadError(body).Unreadable? ==>
              f == Raised(ProtocolError("http_" + NatToString(status),
                                        if body.text == "" then "Unknown error" else body.text,
                                        EmptyObj))
    ensures ReadError(body).Fields? && ReadError(body).code == JStr("version_mismatch") ==>
              var required := DetailOr(ReadError(body).details, "required_version");
              f == if required.Some? then Raised(VersionError(UCP_VERSION, required.value)) else Crash
    ensures ReadError(body).Fields? && ReadError(body).code == JStr("capability_not_supported") ==>
              var capability := DetailOr(ReadError(body).details, "capability");
              f == if capability.Some? then Raised(CapabilityError(capability.value)) else Crash
    ensures ReadError(body).Fields? && ReadError(body).code.JStr? && ReadError(body).message.JStr? ==>
              var code := ReadError(body).code.s;
              code != "version_mismatch" && code != "capability_not_supported" ==>
                f == Raised(NewError(code, ReadError(body).message.s, ReadError(body).details))
    ensures ReadError(body).Fields? && !(ReadError(body).code.JStr? && ReadError(body).message.JStr?) ==>
              ReadError(body).code != JStr("version_mismatch") && ReadError(body).code != JStr("capability_not_supported") ==>
                f == Crash
    ensures f.Raised? && ReadError(body).Fields? ==> ReadError(body).code == JStr(f.error.Code())
    ensures f.Raised? ==> (f.error.VersionError? <==> f.error.Code() == "version_mismatch")
    ensures f.Raised? ==> (f.error.CapabilityError? <==> f.error.Code() == "capability_not_supported")
    ensures f.Raised? && f.error.VersionError? ==> f.error.agentVersion == UCP_VERSION
  {
    match ReadError(body)
    case Unreadable =>
      assert ("http_" + NatToString(status))[0] == 'h';
      Raised(NewError("http_" + NatToString(status),
                      if body.text == "" then "Unknown error" else body.text, JNull))
    case Fields(code, message, details) =>
      if code == JStr("version_mismatch") then
        match DetailOr(details, "required_version")
        case Some(v) => Raised(VersionError(UCP_VERSION, v))
        case None => Crash
      else if code == JStr("capability_not_supported") then
        match DetailOr(details, "capability")
        case Some(c) => Raised(CapabilityError(c))
        case None => Crash
      else if code.JStr? && message.JStr? then
        Raised(NewError(code.s, message.s, details))
      else
        Crash
  }

  /** Once the body carries a readable `error` object, the status code plays no part. */
  lemma MappingIgnoresStatus(s1: nat, s2: nat, body: Body)
    requires ReadError(body).Fields?
    ensures MapErrorResponse(s1, body) == MapErrorResponse(s2, body)
  {
  }

  /** The version-mismatch example: a 409 whose error names the required version. */
  lemma VersionMismatchExample(text: string)
    ensures MapErrorResponse(409, Body(text, Some(JObj(map["error" := JObj(map[
              "code" := JStr("version_mismatch"),
              "details" := JObj(map["required_version" := JStr("2027-01-01")])])]))))
            == Raised(VersionError("2026-01-11", "2027-01-01"))
  {
  }
}

=== FILE: wrappers.dfy ===
/** Failure-compatible Option and Result datatypes shared by every module of the model,
    plus `MapAll`, the "decode every element or fail" combinator used by the decoders. */
module Wrappers {

  datatype Option<+T> = None | Some(value: T) {

    predicate IsFailure() {
      None?
    }

    function PropagateFailure<U>(): Option<U>
      requires None?
    {
      None
    }

    function Extract(): T
      requires Some?
    {
      value
    }

    /** Python's `x if x is not None else default`. */
    function GetOr(default: T): T {
      match this
      case Some(v) => v
      case None => default
    }
  }

  datatype Result<+R, +E> = Ok(value: R) | Err(error: E) {

    predicate IsFailure() {
      Err?
    }

    function PropagateFailure<U>(): Result<U, E>
      requires Err?
    {
      Err(error)
    }

    function Extract(): R
      requires Ok?
    {
      value
    }
  }

  /** Applies `f` to every element; fails as soon as one element fails (a list
      comprehension whose body may raise). */
  function MapAll<A, B>(xs: seq<A>, f: A -> Option<B>): (r: Option<seq<B>>)
    ensures r.Some? <==> forall i :: 0 <= i < |xs| ==> f(xs[i]).Some?
    ensures r.Some? ==> |r.value| == |xs|
    ensures r.Some? ==> forall i :: 0 <= i < |xs| ==> r.value[i] == f(xs[i]).value
  {
    if |xs| == 0 then Some([])
    else
      match f(xs[0])
      case None => None
      case Some(y) =>
        match MapAll(xs[1..], f)
        case None => None
        case Some(ys) => Some([y] + ys)
  }
}
